=== FILE: README.md ===
# Accessory-termination charges — a Dafny model

This project models the calculation core of a Streamlit tool that computes
what to charge when a customer cancels a contract for vehicle accessories and
services ("Cálculo de Rescisão de Acessórios"). A spreadsheet comes in with
one row per accessory. Its loose Portuguese headers are renamed to canonical
field names, and five fields are required. The tool then derives the months
left on the term, a 25% penalty over those months and a four-valued contract
status. From these it computes two charges per row: one for when the item is
returned (`valor_cobrar_com_devolucao`) and one for when it is not
(`valor_cobrar_sem_devolucao`). The rows can then be filtered and grouped,
and amounts are shown in Brazilian currency text ("R$ 1.234,56").

Modules, one per concern of the source:

- `Wrappers`: `Option` and `Result`.
- `Text`: `normalize_text`. This covers strip, Latin-1 lower-casing, accent folding and the double-space loop.
- `Headers`: the synonym table, header renaming and the required-field check.
- `Status`: the four statuses, `normalize_status`, `by_flags` and the months-only rule.
- `Records`: typed rows and tables.
- `Charges`: the two charge formulas.
- `Derive`: the derived columns.
- `Pipeline`: the whole calculation, plus re-processing of its own export.
- `Query`: filters, the slider defaults, the headline figures and the grouped summary.
- `Brl`: the currency formatter.

"Today" is a parameter: a day number. Dates are day numbers and amounts are reals.
The status-text classifier is also a parameter (`Status.TextRule`). `AsWritten`
follows the code. `Corrected` fixes the first finding below. The BRL formatter
exists in both forms too: `Brl.BrlAsWritten` and the corrected `Brl.Brl`.

## Model

| member | source | states |
|---|---|---|
| Text.NormalizeText | streamlit_app.py:36-42 | The result is stripped, has no two adjacent spaces, is made only of lower-case characters with none of the folded accented letters, and is no longer than the input. Which characters it keeps is stated by `Text.NormalizeKeepsLetters`, and how interior runs of spaces become one space by `Text.NormalizeJoinsWithOneSpace` |
| Text.NormalizeKeepsLetters | streamlit_app.py:36-42 | Normalising changes only whitespace and letter case and accents: with whitespace deleted, the result is the input with whitespace deleted, lower-cased and accent-folded, character for character |
| Text.CollapseDoubleSpaces | streamlit_app.py:41 | The replace-until-none-left loop ends, with no double space left, in exactly the reference result in which every run of spaces became one space |
| Text.ReplaceThenCollapse | streamlit_app.py:41 | One left-to-right `replace("  ", " ")` pass leaves the final collapsed text unchanged, with or without a preceding space: this is the loop invariant |
| Text.NormalizeIdempotent | streamlit_app.py:36-42 | Normalising twice is the same as normalising once |
| Text.NormalizedIsFixed | streamlit_app.py:36-42 | Text already in normal form is left unchanged |
| Text.NormalizeJoinsWithOneSpace | streamlit_app.py:36-41 | Two stripped, non-empty pieces joined by a run of one or more spaces normalise to the two pieces normalised on their own, joined by exactly one space: the loop of line 41 turns every interior run of spaces into a single space |
| Headers.HeaderMap | streamlit_app.py:79-95 | Each of the 28 loose headers (26 in normal form, 2 accented and unreachable) maps to its canonical field name, and every name produced is one of the fifteen canonical names. The table is its own specification: its keys and values were checked one by one against lines 80-94 |
| Headers.CanonicalHeader | streamlit_app.py:96-98 | A header whose normalised form is a synonym key becomes its canonical name. Any other header becomes its normalised form. Either way the column name is in normal form |
| Headers.Columns | streamlit_app.py:96-98 | Every raw header contributes its canonical name, and every column comes from some raw header |
| Headers.AccentedKeysNeverMatch | streamlit_app.py:92-93 | No header, after normalisation, equals either synonym key spelled with "ã"/"ç", so these keys are dead |
| Headers.LooseStatusHeaderNeverSurvives | streamlit_app.py:89-139 | No header keeps the name "status do servico/acesorio no cancelamento", so the `elif` on that column can never be taken |
| Headers.MonthlyFeeHeaderExample | streamlit_app.py:85 | The header "Valor Mensalidade do Serviço/Acesório" is recognised as `valor_mensalidade` |
| Headers.MissingRequired | streamlit_app.py:101-102 | Exactly the required fields absent from the columns are listed, in strictly increasing code-point order |
| Headers.CheckSchema | streamlit_app.py:101-105 | It succeeds, keeping the columns, iff all five required fields are present. Otherwise it fails with exactly the missing ones, sorted |
| Status.FromText | streamlit_app.py:129-134 | As written: the result is in term iff the text says "com vigencia" and "instalado". It is installed iff it says "instalado" and a vigência marker. "Com vigência e não instalado" never comes out |
| Status.FromTextCorrected | streamlit_app.py:129-134 | With the "nao instalado" tests first: in term iff "com vigencia" and "instalado". Installed iff "instalado" without "nao instalado", and with a vigência marker |
| Status.NoMarkerIsDefault | streamlit_app.py:134 | Text with neither vigência marker is "Sem vigência e não instalado" under both classifiers |
| Status.AsWrittenNameRoundTrip | streamlit_app.py:129-134 | As written, reading a canonical status name back gives "Com vigência e instalado" for both in-term names and "Sem vigência e instalado" for both expired names |
| Status.CorrectedNameRoundTrip | streamlit_app.py:129-134 | With the corrected classifier, every canonical name reads back as its own status |
| Status.StartsWithComVigenciaIffInTerm | streamlit_app.py:159-165 | `startswith("Com vigência")` holds of a status name exactly for the two in-term statuses |
| Status.ByFlags | streamlit_app.py:142-146 | In term iff months > 0. Installed iff the `instalado` flag is set and months ≥ 0. A negative month count falls through to "Sem vigência e não instalado" |
| Status.ByMonths | streamlit_app.py:149 | In term and installed iff months > 0, otherwise "Sem vigência e não instalado" |
| Status.ByMonthsIsByFlagsWithInstalledInTerm | streamlit_app.py:142-149 | The months-only rule is the flags rule with the item taken as installed exactly while in term |
| Derive.MonthsFromDays | streamlit_app.py:119-120 | No days left (or a past date) gives 0 months. Otherwise the result is the fewest 30-day months covering the days |
| Derive.MonthsFromDaysExamples | streamlit_app.py:119-120 | 31 days count as 2 months, 30 days as 1, and 5 days past as 0 |
| Derive.RemainingMonths | streamlit_app.py:119 | An unknown end date counts as 0 months. A known one counts as the months covering the days until it |
| Derive.DeriveMeses | streamlit_app.py:116-122 | A complete supplied column is kept. Otherwise every row is recomputed from its end date, giving 0 without an end-date column, and no row is negative |
| Derive.Penalty25 | streamlit_app.py:126 | Four times the penalty is the fee (missing counts as 0) times the months |
| Derive.DeriveTaxa | streamlit_app.py:125-126 | A complete supplied column is kept. Otherwise each row is a quarter of fee times months |
| Derive.StatusSourceOf | streamlit_app.py:136-149 | Status comes from text iff a status column is present. It comes from the flags iff there is no status column but there is an `instalado` column. Otherwise it comes from the months |
| Derive.DeriveStatus | streamlit_app.py:136-149 | From a status column, each row's status is the classification of its text, a missing cell read as the empty text; as written, no row is then "Com vigência e não instalado". From the flags or from the months, each row's status has the axes of `ByFlags`/`ByMonths` |
| Derive.FeeOrZero | streamlit_app.py:151-154 | An absent column or a missing cell gives 0. Otherwise the cell's value is used |
| Charges.WithReturn | streamlit_app.py:157-161 | In term: penalty + cancellation fee. Expired but installed: the fee alone. Expired and not installed: 0 |
| Charges.WithoutReturn | streamlit_app.py:163-167 | In term: penalty + non-return penalty. Expired but installed: the non-return penalty alone. Expired and not installed: 0 |
| Charges.ChargesNonNegative | streamlit_app.py:157-167 | Both charges are non-negative when their inputs are |
| Charges.InTermStatusesChargeAlike | streamlit_app.py:159-165 | The two in-term statuses produce the same charges |
| Pipeline.ChargeRow | streamlit_app.py:151-170 | A computed row keeps the input row, the derived months, the penalty and the status, takes both fees zero-filled, and carries the two charges of the decision table for its status, penalty and fees |
| Pipeline.Process | streamlit_app.py:115-170 | One output per row, in order, keeping the row. Recomputed months are non-negative. A "Sem vigência e não instalado" row is charged 0 both ways |
| Pipeline.Run | streamlit_app.py:96-170 | It stops iff a required field is missing after renaming, reporting exactly the missing fields, sorted. Otherwise its value is the calculation on the table with the renamed headers, one result per row |
| Pipeline.ChargesAreNonNegative | streamlit_app.py:115-170 | With non-negative amounts in the table, every computed charge is non-negative |
| Pipeline.InTermRow | streamlit_app.py:124-167 | With the months supplied and the penalty column absent, a row whose status text reads as "Com vigência e instalado" gets a quarter of fee times months as penalty, and is charged that penalty plus the cancellation fee with return, plus the non-return penalty without |
| Pipeline.WorkedExample | streamlit_app.py:124-167 | Fee 1000 over 4 months, status text "Com vigência e instalado", fee 200 and non-return penalty 150: penalty 1000, with return 1200, without return 1150 |
| Pipeline.Export | streamlit_app.py:258 | The exported table carries complete months and penalty columns and a status column, so a second pass reads all three back |
| Pipeline.ReadBack | streamlit_app.py:115-170 | On a second pass over the export, each row keeps its months, penalty and both fees. Its status is the classification of its exported status name, and its charges follow from that status |
| Pipeline.ReprocessIsStable | streamlit_app.py:115-170 | With the corrected classifier, processing the exported table again on any later day reproduces every derived figure of every row |
| Pipeline.ReprocessAsWritten | streamlit_app.py:129-170 | As written, a second pass changes a row's charge with return exactly when the row is "Sem vigência e não instalado" and carries a nonzero cancellation fee |
| Pipeline.ReprocessCounterexample | streamlit_app.py:129-170 | An expired row with cancellation fee 200 is charged 0 with return, and 200 after re-processing its own export |
| Query.Where | streamlit_app.py:207-213 | The rows kept are exactly the rows passing every test, each as many times as it occurs in the input, as an order-preserving subsequence |
| Query.ChainIsConjunction | streamlit_app.py:206-213 | Applying the filters one after another equals filtering once by their conjunction |
| Query.Tests | streamlit_app.py:207-213 | The filter steps taken pass a row iff it meets the selection, an empty selection imposing nothing |
| Query.ApplySelection | streamlit_app.py:206-213 | The filtered table is an order-preserving subsequence holding exactly the rows that meet every non-empty selection and lie in both inclusive ranges |
| Query.DefaultRange | streamlit_app.py:194-203 | None exactly for an empty table. Otherwise `[floor(min), ceil(max)]` contains every value and lies within one unit of the extremes |
| Query.DefaultSelectionKeepsAll | streamlit_app.py:194-213 | With no selection and both sliders at their initial ranges, every row is kept |
| Query.Summarize | streamlit_app.py:238-245 | One line per distinct key of the rows, no two lines sharing a key. Each line's contract set, accessory count and two totals are those of exactly the rows with its key |
| Query.SummaryAccountsForEveryRow | streamlit_app.py:240-245 | The accessory counts of the summary add up to the number of rows, and its totals to the totals of the rows |
| Query.ContractsAtMostAccessories | streamlit_app.py:241-242 | Every summary line has at least one and at most as many distinct contracts as accessories |
| Query.Resumo | streamlit_app.py:236-247 | No grouping field gives no summary. Otherwise the lines have pairwise distinct keys, exactly the keys of the rows, each line holds the accessory count, distinct contracts and both totals of exactly its key's rows, and the lines' accessory counts and both totals add up to those of all rows |
| Query.MetricsOf | streamlit_app.py:219-222 | The two totals are the sums of the two charges, the accessory figure is the row count, and the contract figure is the number of distinct contracts: at most the row count and at least 1 on a non-empty table |
| Query.SummaryMatchesMetrics | streamlit_app.py:219-245 | Whatever the grouping, the summary adds up to the headline accessory count and both totals |
| Brl.Quantize | streamlit_app.py:60-61 | A missing amount counts as 0. The sign is kept, and the cents are the nearest to the magnitude, a tie going away from zero |
| Brl.Digits | streamlit_app.py:62 | A non-empty digit string without leading zeros whose value is the number |
| Brl.Chunks3 | streamlit_app.py:65 | Slices of three whose concatenation is the text, only the last possibly shorter |
| Brl.GroupsConcat | streamlit_app.py:64-66 | The groups, read together, are the integer text |
| Brl.SplitJoin | streamlit_app.py:66 | Splitting at the dots undoes joining dot-free parts with dots |
| Brl.GroupDigits | streamlit_app.py:64-66 | Grouping a digit string yields groups of one to three digits followed by groups of three, which read back as the same digits |
| Brl.BrlAsWritten | streamlit_app.py:59-67 | The code as written: the text starts "R$ " and ends with a comma and the two cent digits of the rounded amount. Its integer part is fixed by `Brl.AsWrittenAgreesWhenNonNegative` together with `Brl.BrlLayout` for non-negative amounts, and by `Brl.NegativeHundredAsWritten` for a negative one |
| Brl.Brl | streamlit_app.py:59-67 | The corrected formatter: the text starts "R$ ", then the minus sign when the amount is negative, and ends with a comma and the two cent digits of the rounded amount. `Brl.BrlLayout` gives the full layout |
| Brl.BrlLayout | streamlit_app.py:59-67 | The corrected text is "R$ ", the sign, well-grouped digits, a comma and two cent digits. Deleting the dots and reading the digits recovers the rounded amount |
| Brl.AsWrittenAgreesWhenNonNegative | streamlit_app.py:59-67 | The code as written and the corrected formatter agree on every non-negative amount |
| Brl.NegativeHundredAsWritten | streamlit_app.py:62-67 | As written, −100 is formatted "R$ -.100,00", whose first group holds no digit |
| Brl.NegativeHundredCorrected | streamlit_app.py:59-67 | With the sign kept outside the grouping, −100 is "R$ -100,00" |
| Brl.ThousandsExample | streamlit_app.py:58-67 | 1234.56 is formatted "R$ 1.234,56" |
| Brl.ThousandsExampleAsWritten | streamlit_app.py:58-67 | The code as written also formats 1234.56 as "R$ 1.234,56" |

## Left out

- The Streamlit page: layout, CSS, widgets, the upload step and the download buttons. The filter selections and grouping fields become parameters.
- `read_any` (CSV/Excel reading), `parse_date_any` and `pd.to_numeric` coercion. Rows arrive typed: dates as day numbers, amounts as reals, unparseable cells as missing.
- `meses_restantes` is not in the `pd.to_numeric` list of line 112. A supplied column with no empty cell but a non-numeric one (such as "4,0") stays text, and the program then fails at line 126 or at the `> 0` tests of lines 143 and 149. The model has no text cells there: such a cell is missing, and the column is recomputed.
- Pipeline.Run: on a sheet with headers but no rows the program most likely stops with an error, from `.dt.days` on the empty date column (line 119) or from assigning the frame that `apply(axis=1)` returns on an empty table (lines 169-170). The model returns an empty result.
- `date.today()` is the `today` parameter.
- `str(s)` on non-text header or status cells: headers and status cells are modelled as text. A missing status cell is read as the empty text; pandas would read NaN as "nan". Both land in "Sem vigência e não instalado".
- Lower-casing covers ASCII and Latin-1 only. Python's full Unicode `lower()` is not modelled.
- Duplicate column names after renaming: a table is modelled as a set of column names.
- `instalado` is modelled as the truth value of its cell (`bool(...)`). A NaN cell is truthy in Python, and the model takes the truth value as given.
- The `placa`, `inicio_vigencia` and `numero_fatura_servico` columns are renamed but not used by any calculation, so rows do not carry them.
- Floating point: amounts are exact reals. The source rounds the shortest decimal text of the float (`Decimal(str(float(x)))`, line 61), so 1.005 rounds to 1.01. `Brl.Quantize` rounds the exact real, which agrees whenever that text is the amount itself.
- Query.Summarize: lines come in order of first appearance, whereas pandas `groupby` sorts the keys. Null key cells (`dropna=False`) are not modelled because keys are text.
- Query.Summarize: the accessory count is the number of rows in the group. pandas' `count` would skip rows whose `servico_acessorio` cell is null, and such cells are not modelled.
- The detailed table's sort by class, contract and accessory, and its column selection (lines 225-228), are display only.
- The slider step of 1.0 and the slider's own bounds are not modelled, apart from the default range.
- The CSV export encoding (`utf-8-sig`) is not modelled. `Pipeline.Export` models only which columns and values a second pass reads back.
- Some descriptions of this tool mention an optional lookup join: auxiliary tables keyed by `chave` would supply the cancellation fee and the non-return penalty. streamlit_app.py has no such join. Both amounts come only from the sheet's own columns, defaulting to 0 (lines 152-154), so the join is not modelled.
- Pipeline.ReprocessIsStable: stated for the export of every computed row. The page exports the filtered rows (line 258). The exported derived columns are complete either way, so each exported row is re-read as it is here, but the lemma is not stated for a filtered subsequence.

## Findings

| source | as written | input that shows it | evidently intended | confidence | as-written member | corrected member |
|---|---|---|---|---|---|---|
| streamlit_app.py:131-134 | `normalize_status` tests "instalado" before "nao instalado". Every "… não instalado" text contains "instalado", so "Com vigência e não instalado" is unreachable, and the tool's own "Sem vigência e não instalado" reads back as "Sem vigência e instalado" | The exported row "Sem vigência e não instalado" with cancellation fee 200, charged 0 with return, is charged 200 when the export is processed again | Test the "nao instalado" phrases first, so that every canonical status name maps to itself and re-processing an export changes nothing | high (not executed) | Status.AsWrittenNameRoundTrip, Pipeline.ReprocessCounterexample | Status.CorrectedNameRoundTrip, Pipeline.ReprocessIsStable |
| streamlit_app.py:62-66 | `brl` groups the integer text including its minus sign, so a negative amount whose integer part has a multiple of three digits gets a dot straight after the sign | −100 is formatted "R$ -.100,00" | Keep the sign out of the grouping: "R$ -100,00" | high (not executed) | Brl.NegativeHundredAsWritten | Brl.BrlLayout, Brl.NegativeHundredCorrected |

=== FILE: brl.dfy ===
/** Brazilian currency text, "R$ 1.234,56" (streamlit_app.py:59-67): round to
    cents half away from zero, write the integer part in groups of three
    digits separated by dots, and a comma before the two cent digits. */
module Brl {
  import opened Wrappers

  // ---------------------------------------------------------------------------
  // Rounding to cents
  // ---------------------------------------------------------------------------

  /** A decimal rounded to cents. A decimal keeps its sign even when it
      rounds to zero, so the sign is carried apart from the magnitude. */
  datatype Quantized = Quantized(negative: bool, cents: nat)

  /** `quantize(Decimal("0.01"), ROUND_HALF_UP)`: the nearest cent, a tie
      going away from zero; a missing amount counts as zero. */
  function Quantize(x: Option<real>): (q: Quantized)
    ensures q.negative <==> x.GetOr(0.0) < 0.0
    ensures var a := if x.GetOr(0.0) < 0.0 then -x.GetOr(0.0) else x.GetOr(0.0);
            100.0 * a - 0.5 < q.cents as real <= 100.0 * a + 0.5
  {
    var v := x.GetOr(0.0);
    var a := if v < 0.0 then -v else v;
    Quantized(v < 0.0, (100.0 * a + 0.5).Floor)
  }

  // ---------------------------------------------------------------------------
  // Decimal digits
  // ---------------------------------------------------------------------------

  predicate IsDigit(c: char) {
    '0' <= c <= '9'
  }

  predicate AllDigits(s: string) {
    forall i | 0 <= i < |s| :: IsDigit(s[i])
  }

  function DigitChar(d: nat): (c: char)
    requires d < 10
    ensures IsDigit(c) && (c as int) - ('0' as int) == d
  {
    (('0' as int) + d) as char
  }

  /** The value of a digit string. */
  function ValueOf(s: string): nat
    requires AllDigits(s)
    decreases |s|
  {
    if s == [] then 0
    else ValueOf(s[..|s| - 1]) * 10 + ((s[|s| - 1] as int) - ('0' as int))
  }

  /** `n` in decimal, with no leading zero. */
  function Digits(n: nat): (s: string)
    ensures |s| >= 1 && AllDigits(s) && ValueOf(s) == n
    ensures s[0] == '0' ==> n == 0 && |s| == 1
    decreases n
  {
    if n < 10 then [DigitChar(n)]
    else
      var s := Digits(n / 10) + [DigitChar(n % 10)];
      assert s[..|s| - 1] == Digits(n / 10);
      s
  }

  /** The two cent digits. */
  function TwoDigits(n: nat): (s: string)
    requires n < 100
    ensures |s| == 2 && AllDigits(s) && ValueOf(s) == n
  {
    var s := [DigitChar(n / 10), DigitChar(n % 10)];
    assert s[..1] == [DigitChar(n / 10)];
    assert s[..1][..0] == [];
    assert ValueOf(s[..1]) == n / 10;
    s
  }

  // ---------------------------------------------------------------------------
  // Thousands grouping
  // ---------------------------------------------------------------------------

  function Reverse<T>(s: seq<T>): (r: seq<T>)
    ensures |r| == |s| && forall i | 0 <= i < |s| :: r[i] == s[|s| - 1 - i]
  {
    seq(|s|, i requires 0 <= i < |s| => s[|s| - 1 - i])
  }

  function Concat(ps: seq<string>): string
    decreases |ps|
  {
    if ps == [] then [] else ps[0] + Concat(ps[1..])
  }

  /** Slices of three from the front; the last one may be shorter. */
  function Chunks3(s: string): (ps: seq<string>)
    ensures Concat(ps) == s
    ensures forall i | 0 <= i < |ps| :: 1 <= |ps[i]| <= 3
    ensures forall i | 0 <= i < |ps| - 1 :: |ps[i]| == 3
    ensures s == [] <==> ps == []
    decreases |s|
  {
    if s == [] then []
    else if |s| <= 3 then
      assert [s][1..] == [];
      [s]
    else
      var ps := [s[..3]] + Chunks3(s[3..]);
      assert ps[1..] == Chunks3(s[3..]);
      ps
  }

  /** `".".join(parts)`. */
  function JoinDots(ps: seq<string>): string
    decreases |ps|
  {
    if ps == [] then []
    else if |ps| == 1 then ps[0]
    else ps[0] + "." + JoinDots(ps[1..])
  }

  /** The groups as written, most significant first: the slices of the
      reversed text, each reversed back, in reverse order. */
  function Groups(s: string): (ps: seq<string>)
    ensures |ps| == |Chunks3(Reverse(s))|
    ensures forall i | 0 <= i < |ps| :: 1 <= |ps[i]| <= 3
    ensures forall i | 1 <= i < |ps| :: |ps[i]| == 3
  {
    var parts := Chunks3(Reverse(s));
    Reverse(seq(|parts|, i requires 0 <= i < |parts| => Reverse(parts[i])))
  }

  /** Lines 64-66: the integer text in groups of three, dot-separated. */
  function GroupThousands(s: string): string {
    JoinDots(Groups(s))
  }

  lemma {:induction false} ConcatReversed(ps: seq<string>)
    ensures Concat(Reverse(seq(|ps|, i requires 0 <= i < |ps| => Reverse(ps[i])))) == Reverse(Concat(ps))
    decreases |ps|
  {
    if ps != [] {
      var tail := ps[1..];
      ConcatReversed(tail);
      var m := seq(|ps|, i requires 0 <= i < |ps| => Reverse(ps[i]));
      var mt := seq(|tail|, i requires 0 <= i < |tail| => Reverse(tail[i]));
      assert Reverse(m) == Reverse(mt) + [Reverse(ps[0])];
      ConcatSnoc(Reverse(mt), Reverse(ps[0]));
      assert Reverse(ps[0] + Concat(tail)) == Reverse(Concat(tail)) + Reverse(ps[0]);
    }
  }

  lemma {:induction false} ConcatSnoc(ps: seq<string>, p: string)
    ensures Concat(ps + [p]) == Concat(ps) + p
    decreases |ps|
  {
    if ps == [] {
      assert [p][1..] == [];
    } else {
      ConcatSnoc(ps[1..], p);
      assert (ps + [p])[1..] == ps[1..] + [p];
    }
  }

  /** The groups read together give back the text. */
  lemma GroupsConcat(s: string)
    ensures Concat(Groups(s)) == s
  {
    var parts := Chunks3(Reverse(s));
    ConcatReversed(parts);
    assert Reverse(Reverse(s)) == s;
  }

  // ---------------------------------------------------------------------------
  // Reading the dots back
  // ---------------------------------------------------------------------------

  /** `s.split(".")`. */
  function SplitDots(s: string): (ps: seq<string>)
    ensures |ps| >= 1
    decreases |s|
  {
    if s == [] then [[]]
    else
      var rest := SplitDots(s[1..]);
      if s[0] == '.' then [[]] + rest else [[s[0]] + rest[0]] + rest[1..]
  }

  lemma {:induction false} SplitPrefix(p: string, q: string)
    requires '.' !in p
    ensures SplitDots(p + q) == [p + SplitDots(q)[0]] + SplitDots(q)[1..]
    decreases |p|
  {
    if p != [] {
      SplitPrefix(p[1..], q);
      assert p[0] in p;
      assert (p + q)[0] == p[0] != '.';
      assert (p + q)[1..] == p[1..] + q;
      var rest := SplitDots(p[1..] + q);
      assert rest[0] == p[1..] + SplitDots(q)[0];
      assert rest[1..] == SplitDots(q)[1..];
      assert SplitDots(p + q) == [[p[0]] + rest[0]] + rest[1..];
      assert [p[0]] + (p[1..] + SplitDots(q)[0]) == p + SplitDots(q)[0];
    } else {
      assert p + q == q && p + SplitDots(q)[0] == SplitDots(q)[0];
      assert [SplitDots(q)[0]] + SplitDots(q)[1..] == SplitDots(q);
    }
  }

  /** Splitting at the dots undoes joining with dots, for dot-free parts. */
  lemma {:induction false} SplitJoin(ps: seq<string>)
    requires |ps| >= 1
    requires forall i | 0 <= i < |ps| :: '.' !in ps[i]
    ensures SplitDots(JoinDots(ps)) == ps
    decreases |ps|
  {
    if |ps| == 1 {
      SplitPrefix(ps[0], []);
      assert ps[0] + [] == ps[0];
    } else {
      SplitJoin(ps[1..]);
      var q := JoinDots(ps[1..]);
      SplitPrefix(ps[0], "." + q);
      assert ("." + q)[1..] == q;
      assert ps[0] + "." + q == ps[0] + ("." + q);
      assert SplitDots("." + q) == [[]] + ps[1..];
      assert ps[0] + [] == ps[0];
      assert [ps[0]] + ps[1..] == ps;
    }
  }

  /** Digit groups of the Brazilian layout: a first group of one to three
      digits, then groups of exactly three, all separated by dots. */
  predicate WellGrouped(g: string) {
    var ps := SplitDots(g);
    && 1 <= |ps[0]| <= 3
    && (forall i | 1 <= i < |ps| :: |ps[i]| == 3)
    && (forall i | 0 <= i < |ps| :: AllDigits(ps[i]))
  }

  /** Text with the dots taken out. */
  function RemoveDots(s: string): (r: string)
    ensures '.' !in r
    decreases |s|
  {
    if s == [] then []
    else if s[0] == '.' then RemoveDots(s[1..])
    else [s[0]] + RemoveDots(s[1..])
  }

  lemma {:induction false} RemoveDotsAppend(a: string, b: string)
    ensures RemoveDots(a + b) == RemoveDots(a) + RemoveDots(b)
    decreases |a|
  {
    if a != [] {
      RemoveDotsAppend(a[1..], b);
      assert (a + b)[0] == a[0];
      assert (a + b)[1..] == a[1..] + b;
      if a[0] == '.' {
        assert RemoveDots(a + b) == RemoveDots(a[1..] + b);
      } else {
        assert RemoveDots(a + b) == [a[0]] + RemoveDots(a[1..] + b);
        assert [a[0]] + (RemoveDots(a[1..]) + RemoveDots(b)) == ([a[0]] + RemoveDots(a[1..])) + RemoveDots(b);
      }
    } else {
      assert a + b == b && RemoveDots(a) == [];
    }
  }

  lemma {:induction false} RemoveDotsFree(s: string)
    requires '.' !in s
    ensures RemoveDots(s) == s
    decreases |s|
  {
    if s != [] {
      RemoveDotsFree(s[1..]);
    }
  }

  /** Taking the dots out of dot-joined parts leaves their concatenation. */
  lemma {:induction false} RemoveDotsJoin(ps: seq<string>)
    requires forall i | 0 <= i < |ps| :: '.' !in ps[i]
    ensures RemoveDots(JoinDots(ps)) == Concat(ps)
    decreases |ps|
  {
    if |ps| == 1 {
      RemoveDotsFree(ps[0]);
      assert ps[1..] == [];
    } else if |ps| > 1 {
      RemoveDotsJoin(ps[1..]);
      RemoveDotsAppend(ps[0], "." + JoinDots(ps[1..]));
      RemoveDotsFree(ps[0]);
      assert ("." + JoinDots(ps[1..]))[1..] == JoinDots(ps[1..]);
      assert ps[0] + "." + JoinDots(ps[1..]) == ps[0] + ("." + JoinDots(ps[1..]));
    }
  }

  /** Grouping a digit string gives well-formed groups that read back as
      the same digits. */
  lemma GroupDigits(s: string)
    requires |s| >= 1 && AllDigits(s)
    ensures WellGrouped(GroupThousands(s))
    ensures RemoveDots(GroupThousands(s)) == s
  {
    var ps := Groups(s);
    GroupsConcat(s);
    GroupsAreDigits(s);
    assert |Reverse(s)| >= 1;
    SplitJoin(ps);
    RemoveDotsJoin(ps);
  }

  lemma GroupsAreDigits(s: string)
    requires AllDigits(s)
    ensures forall i | 0 <= i < |Groups(s)| :: AllDigits(Groups(s)[i])
  {
    var ps := Groups(s);
    GroupsConcat(s);
    forall i | 0 <= i < |ps| ensures AllDigits(ps[i]) {
      ConcatPartIn(ps, i);
      forall j | 0 <= j < |ps[i]| ensures IsDigit(ps[i][j]) {
        assert ps[i][j] in ps[i];
        assert ps[i][j] in s;
      }
    }
  }

  /** Every character of a part is a character of the concatenation. */
  lemma {:induction false} ConcatPartIn(ps: seq<string>, i: nat)
    requires i < |ps|
    ensures forall c | c in ps[i] :: c in Concat(ps)
    decreases |ps|
  {
    if i > 0 {
      ConcatPartIn(ps[1..], i - 1);
    }
  }

  // ---------------------------------------------------------------------------
  // The formatter
  // ---------------------------------------------------------------------------

  /** `f"{q:.2f}"` before the point: the sign, then the whole reais. */
  function IntegerText(q: Quantized): string {
    (if q.negative then "-" else "") + Digits(q.cents / 100)
  }

  /** `brl` as written: the sign is part of the text being grouped, so a
      negative amount whose integer part has a multiple of three digits gets
      a dot straight after the sign. */
  function BrlAsWritten(x: Option<real>): (r: string)
    ensures |r| >= 7 && r[..3] == "R$ " && r[|r| - 3] == ','
    ensures AllDigits(r[|r| - 2..]) && ValueOf(r[|r| - 2..]) == Quantize(x).cents % 100
  {
    var q := Quantize(x);
    var r := "R$ " + GroupThousands(IntegerText(q)) + "," + TwoDigits(q.cents % 100);
    assert r[|r| - 2..] == TwoDigits(q.cents % 100);
    r
  }

  /** `brl` with the sign kept out of the grouping. */
  function Brl(x: Option<real>): (r: string)
    ensures |r| >= 7 && r[..3] == "R$ " && r[|r| - 3] == ','
    ensures AllDigits(r[|r| - 2..]) && ValueOf(r[|r| - 2..]) == Quantize(x).cents % 100
    ensures Quantize(x).negative ==> r[3] == '-'
  {
    var q := Quantize(x);
    var r := "R$ " + (if q.negative then "-" else "") + GroupThousands(Digits(q.cents / 100))
      + "," + TwoDigits(q.cents % 100);
    assert r[|r| - 2..] == TwoDigits(q.cents % 100);
    r
  }

  /** The corrected text is "R$ ", the sign, well-grouped digits that read
      back as the whole reais, a comma and the two cent digits: deleting the
      dots and reading the digits gives back the rounded amount. */
  lemma BrlLayout(x: Option<real>)
    ensures var q := Quantize(x);
            var sign := if q.negative then "-" else "";
            var g := GroupThousands(Digits(q.cents / 100));
            && Brl(x) == "R$ " + sign + g + "," + TwoDigits(q.cents % 100)
            && WellGrouped(g)
            && RemoveDots(g) == Digits(q.cents / 100)
            && ValueOf(RemoveDots(g)) * 100 + ValueOf(TwoDigits(q.cents % 100)) == q.cents
  {
    var q := Quantize(x);
    GroupDigits(Digits(q.cents / 100));
  }

  /** The two agree on every amount that is not negative. */
  lemma AsWrittenAgreesWhenNonNegative(x: Option<real>)
    requires x.GetOr(0.0) >= 0.0
    ensures BrlAsWritten(x) == Brl(x)
  {
    var q := Quantize(x);
    assert !q.negative;
    UnsignedLayout(q);
  }

  lemma UnsignedLayout(q: Quantized)
    requires !q.negative
    ensures "R$ " + GroupThousands(IntegerText(q)) + "," + TwoDigits(q.cents % 100)
         == "R$ " + "" + GroupThousands(Digits(q.cents / 100)) + "," + TwoDigits(q.cents % 100)
  {
    assert IntegerText(q) == "" + Digits(q.cents / 100) == Digits(q.cents / 100);
  }

  /** As written, minus one hundred reais comes out as "R$ -.100,00", whose
      first group holds no digit. */
  lemma NegativeHundredAsWritten()
    ensures BrlAsWritten(Some(-100.0)) == "R$ -.100,00"
    ensures !WellGrouped("-.100")
  {
    NegativeHundredText();
    NegativeHundredGroups();
    NegativeHundredNotWellGrouped();
    assert BrlAsWritten(Some(-100.0)) == "R$ " + "-.100" + "," + "00";
    NegativeHundredPieces();
  }

  lemma NegativeHundredText()
    ensures Quantize(Some(-100.0)) == Quantized(true, 10000)
    ensures IntegerText(Quantized(true, 10000)) == "-100"
    ensures TwoDigits(10000 % 100) == "00"
  {
    assert Digits(100) == "100";
  }

  lemma NegativeHundredGroups()
    ensures GroupThousands("-100") == "-.100"
  {
    assert Reverse("-100") == "001-";
    NegativeHundredChunks();
    assert Reverse("001") == "100" && Reverse("-") == "-";
    assert Groups("-100") == ["-", "100"];
  }

  lemma NegativeHundredChunks()
    ensures Chunks3("001-") == ["001", "-"]
  {
    assert "001-"[..3] == "001" && "001-"[3..] == "-";
  }

  lemma NegativeHundredNotWellGrouped()
    ensures !WellGrouped("-.100")
  {
    SplitJoin(["-", "100"]);
    assert JoinDots(["-", "100"]) == "-.100";
    assert !AllDigits("-");
  }

  lemma NegativeHundredPieces()
    ensures "R$ " + "-.100" + "," + "00" == "R$ -.100,00"
    ensures "R$ " + "-" + "100" + "," + "00" == "R$ -100,00"
  {
  }

  /** With the sign kept out of the grouping, the same amount is
      "R$ -100,00". */
  lemma NegativeHundredCorrected()
    ensures Brl(Some(-100.0)) == "R$ -100,00"
  {
    NegativeHundredText();
    HundredGroups();
    assert Brl(Some(-100.0)) == "R$ " + "-" + "100" + "," + "00";
    NegativeHundredPieces();
  }

  lemma HundredGroups()
    ensures GroupThousands(Digits(100)) == "100"
  {
    assert Digits(100) == "100";
    assert Reverse("100") == "001";
    assert Chunks3("001") == ["001"];
    assert Reverse("001") == "100";
    assert Groups("100") == ["100"];
  }

  lemma QuantizeExample()
    ensures Quantize(Some(1234.56)) == Quantized(false, 123456)
  {
    assert 100.0 * 1234.56 + 0.5 == 123456.5;
  }

  lemma GroupThousandsExample()
    ensures GroupThousands(Digits(1234)) == "1.234"
  {
    assert Digits(1234) == "1234";
    assert Reverse("1234") == "4321";
    ThousandsChunks();
    assert Reverse("432") == "234" && Reverse("1") == "1";
    assert Groups("1234") == ["1", "234"];
  }

  lemma ThousandsChunks()
    ensures Chunks3("4321") == ["432", "1"]
  {
    assert "4321"[..3] == "432" && "4321"[3..] == "1";
  }

  /** The layout the code documents: 1234.56 is "R$ 1.234,56". */
  lemma ThousandsExample()
    ensures Brl(Some(1234.56)) == "R$ 1.234,56"
  {
    QuantizeExample();
    GroupThousandsExample();
    var q := Quantized(false, 123456);
    assert q.cents / 100 == 1234 && q.cents % 100 == 56;
    assert TwoDigits(56) == "56";
    assert Brl(Some(1234.56)) == "R$ " + "" + "1.234" + "," + "56";
  }

  /** The code as written gives the same text for that amount. */
  lemma ThousandsExampleAsWritten()
    ensures BrlAsWritten(Some(1234.56)) == "R$ 1.234,56"
  {
    ThousandsExample();
    AsWrittenAgreesWhenNonNegative(Some(1234.56));
  }
}

=== FILE: charges.dfy ===
/** The charge decision table (streamlit_app.py:157-167): two amounts per row,
    one if the item is returned and one if it is not. The code tests the
    status text, `startswith("Com vigência")` first and then equality with
    "Sem vigência e instalado"; the contracts restate the table by status. */
module Charges {
  import opened Text
  import opened Status

  /** `valor_com_devolucao` (streamlit_app.py:157-161). */
  function WithReturn(s: Status, multa25: real, taxaCancelamento: real): (v: real)
    ensures InTerm(s) ==> v == multa25 + taxaCancelamento
    ensures s == SemVigenciaInstalado ==> v == taxaCancelamento
    ensures s == SemVigenciaNaoInstalado ==> v == 0.0
  {
    StartsWithComVigenciaIffInTerm(s);
    if StartsWith(Name(s), "Com vigência") then multa25 + taxaCancelamento
    else if Name(s) == "Sem vigência e instalado" then
      assert Name(s) == Name(SemVigenciaInstalado);
      NamesAreDistinct(s, SemVigenciaInstalado);
      taxaCancelamento
    else 0.0
  }

  /** `valor_sem_devolucao` (streamlit_app.py:163-167). */
  function WithoutReturn(s: Status, multa25: real, multaNaoDevolucao: real): (v: real)
    ensures InTerm(s) ==> v == multa25 + multaNaoDevolucao
    ensures s == SemVigenciaInstalado ==> v == multaNaoDevolucao
    ensures s == SemVigenciaNaoInstalado ==> v == 0.0
  {
    StartsWithComVigenciaIffInTerm(s);
    if StartsWith(Name(s), "Com vigência") then multa25 + multaNaoDevolucao
    else if Name(s) == "Sem vigência e instalado" then
      assert Name(s) == Name(SemVigenciaInstalado);
      NamesAreDistinct(s, SemVigenciaInstalado);
      multaNaoDevolucao
    else 0.0
  }

  /** Both charges are non-negative whenever their inputs are. */
  lemma ChargesNonNegative(s: Status, multa25: real, taxa: real, multa: real)
    requires multa25 >= 0.0 && taxa >= 0.0 && multa >= 0.0
    ensures WithReturn(s, multa25, taxa) >= 0.0
    ensures WithoutReturn(s, multa25, multa) >= 0.0
  {
  }

  /** The two in-term statuses charge alike: whether the item is installed
      matters only once the term has ended. */
  lemma InTermStatusesChargeAlike(multa25: real, taxa: real, multa: real)
    ensures WithReturn(ComVigenciaInstalado, multa25, taxa) == WithReturn(ComVigenciaNaoInstalado, multa25, taxa)
    ensures WithoutReturn(ComVigenciaInstalado, multa25, multa)
         == WithoutReturn(ComVigenciaNaoInstalado, multa25, multa)
  {
  }
}

=== FILE: derive.dfy ===
/** The derived columns (streamlit_app.py:115-154): remaining months, the 25%
    penalty, the contract status and the zero-filled fee columns. A derived
    column is recomputed for every row unless the table supplies it complete,
    so a single missing cell discards every supplied value of that column. */
module Derive {
  import opened Wrappers
  import opened Status
  import opened Records

  // ---------------------------------------------------------------------------
  // Remaining months
  // ---------------------------------------------------------------------------

  /** `ceil(max(0, days) / 30)`: the fewest 30-day months covering the
      remaining days (streamlit_app.py:119-120). */
  function MonthsFromDays(days: int): (m: nat)
    ensures days <= 0 ==> m == 0
    ensures days > 0 ==> 30 * (m - 1) < days <= 30 * m
  {
    if days <= 0 then 0 else (days + 29) / 30
  }

  /** 31 days still count as two months; an end date five days past counts
      as none. */
  lemma MonthsFromDaysExamples()
    ensures MonthsFromDays(31) == 2
    ensures MonthsFromDays(-5) == 0
    ensures MonthsFromDays(30) == 1
  {
  }

  /** The months left on one row: an unknown end date counts as zero days
      (`fillna(0)`). */
  function RemainingMonths(fim: Option<int>, today: int): (m: nat)
    ensures fim.None? ==> m == 0
    ensures fim.Some? ==> m == MonthsFromDays(fim.value - today)
  {
    match fim
    case None => 0
    case Some(d) => MonthsFromDays(d - today)
  }

  /** The table supplies `meses_restantes` with no missing cell. */
  predicate MesesComplete(t: Table) {
    "meses_restantes" in t.columns && forall i | 0 <= i < |t.rows| :: t.rows[i].mesesRestantes.Some?
  }

  /** The `meses_restantes` column after streamlit_app.py:116-122, given the
      day number of "today". */
  function DeriveMeses(t: Table, today: int): (ms: seq<real>)
    ensures |ms| == |t.rows|
    ensures MesesComplete(t) ==> forall i | 0 <= i < |ms| :: ms[i] == t.rows[i].mesesRestantes.value
    ensures !MesesComplete(t) ==> forall i | 0 <= i < |ms| ::
      ms[i] >= 0.0 && ms[i] == RemainingMonths(Cell(t, "fim_vigencia", t.rows[i].fimVigencia), today) as real
  {
    if MesesComplete(t) then
      seq(|t.rows|, i requires 0 <= i < |t.rows| => t.rows[i].mesesRestantes.value)
    else
      seq(|t.rows|, i requires 0 <= i < |t.rows| =>
        RemainingMonths(Cell(t, "fim_vigencia", t.rows[i].fimVigencia), today) as real)
  }

  // ---------------------------------------------------------------------------
  // 25% penalty
  // ---------------------------------------------------------------------------

  /** The table supplies `taxa_multa_25pct` with no missing cell. */
  predicate TaxaComplete(t: Table) {
    "taxa_multa_25pct" in t.columns && forall i | 0 <= i < |t.rows| :: t.rows[i].taxaMulta25.Some?
  }

  /** A quarter of the fees for the remaining months, a missing fee counting
      as zero (streamlit_app.py:126). */
  function Penalty25(fee: Option<real>, meses: real): (p: real)
    ensures 4.0 * p == fee.GetOr(0.0) * meses
  {
    fee.GetOr(0.0) * meses * 0.25
  }

  /** 25% of a 1000 fee over four months is 1000. */
  lemma Penalty25Example()
    ensures Penalty25(Some(1000.0), 4.0) == 1000.0
  {
  }

  /** The penalty is non-negative when fee and months are. */
  lemma Penalty25NonNegative(fee: Option<real>, meses: real)
    requires fee.GetOr(0.0) >= 0.0 && meses >= 0.0
    ensures Penalty25(fee, meses) >= 0.0
  {
  }

  /** The `taxa_multa_25pct` column after streamlit_app.py:125-126, given the
      months column already derived. */
  function DeriveTaxa(t: Table, ms: seq<real>): (xs: seq<real>)
    requires |ms| == |t.rows|
    ensures |xs| == |t.rows|
    ensures TaxaComplete(t) ==> forall i | 0 <= i < |xs| :: xs[i] == t.rows[i].taxaMulta25.value
    ensures !TaxaComplete(t) ==> forall i | 0 <= i < |xs| ::
      4.0 * xs[i] == Cell(t, "valor_mensalidade", t.rows[i].valorMensalidade).GetOr(0.0) * ms[i]
  {
    if TaxaComplete(t) then
      seq(|t.rows|, i requires 0 <= i < |t.rows| => t.rows[i].taxaMulta25.value)
    else
      seq(|t.rows|, i requires 0 <= i < |t.rows| =>
        Penalty25(Cell(t, "valor_mensalidade", t.rows[i].valorMensalidade), ms[i]))
  }

  // ---------------------------------------------------------------------------
  // Status
  // ---------------------------------------------------------------------------

  /** Which of the three paths of streamlit_app.py:136-149 a table takes. */
  datatype StatusSource = FromStatusText | FromFlags | FromMonths

  function StatusSourceOf(t: Table): (src: StatusSource)
    ensures src == FromStatusText <==>
      "status_do_contrato" in t.columns || "status do servico/acesorio no cancelamento" in t.columns
    ensures src == FromFlags <==>
      src != FromStatusText && "instalado" in t.columns
  {
    if "status_do_contrato" in t.columns then FromStatusText
    else if "status do servico/acesorio no cancelamento" in t.columns then FromStatusText
    else if "instalado" in t.columns then FromFlags
    else FromMonths
  }

  /** The status of one row. `normalize_text(None)` is empty (line 37), so a
      missing status cell is read as the empty text. */
  function RowStatus(rule: TextRule, src: StatusSource, r: Row, meses: real): Status {
    match src
    case FromStatusText => Classify(rule, r.statusText.GetOr(""))
    case FromFlags => ByFlags(meses, r.instalado)
    case FromMonths => ByMonths(meses)
  }

  /** The `status_do_contrato` column (streamlit_app.py:136-149). */
  function DeriveStatus(rule: TextRule, t: Table, ms: seq<real>): (st: seq<Status>)
    requires |ms| == |t.rows|
    ensures |st| == |t.rows|
    ensures StatusSourceOf(t) == FromFlags ==> forall i | 0 <= i < |st| ::
      (InTerm(st[i]) <==> ms[i] > 0.0) && (Installed(st[i]) <==> t.rows[i].instalado && ms[i] >= 0.0)
    ensures StatusSourceOf(t) == FromMonths ==> forall i | 0 <= i < |st| ::
      (InTerm(st[i]) <==> ms[i] > 0.0) && (Installed(st[i]) <==> ms[i] > 0.0)
    ensures StatusSourceOf(t) == FromStatusText ==> forall i | 0 <= i < |st| ::
      st[i] == Classify(rule, t.rows[i].statusText.GetOr(""))
    ensures StatusSourceOf(t) == FromStatusText && rule == AsWritten ==> forall i | 0 <= i < |st| ::
      st[i] != ComVigenciaNaoInstalado
  {
    var src := StatusSourceOf(t);
    seq(|t.rows|, i requires 0 <= i < |t.rows| => RowStatus(rule, src, t.rows[i], ms[i]))
  }

  // ---------------------------------------------------------------------------
  // Fee columns
  // ---------------------------------------------------------------------------

  /** A fee column filled with zero where absent or missing
      (streamlit_app.py:152-154). */
  function FeeOrZero(t: Table, col: string, v: Option<real>): (x: real)
    ensures col !in t.columns ==> x == 0.0
    ensures col in t.columns && v.None? ==> x == 0.0
    ensures col in t.columns && v.Some? ==> x == v.value
  {
    Cell(t, col, v).GetOr(0.0)
  }
}

=== FILE: headers.dfy ===
/** Header normalisation (streamlit_app.py:79-105): loose spreadsheet headers are
    renamed to canonical field names through a fixed synonym table, every header
    is then normalised, and five canonical fields must be present. */
module Headers {
  import opened Wrappers
  import opened Text

  /** Every name the synonym table can produce. */
  const CanonicalNames: set<string> := {
    "cliente", "classe", "termo", "servico_acessorio", "placa", "inicio_vigencia",
    "fim_vigencia", "numero_fatura_servico", "valor_mensalidade", "meses_restantes",
    "taxa_multa_25pct", "valor_taxa_cancelamento", "status_do_contrato",
    "valor_multa_nao_devolucao", "instalado"
  }

  /** `HEADER_MAP` (streamlit_app.py:79-95): normalised loose header ->
      canonical field name, written as one branch per canonical name. The
      keys are pairwise distinct, so the order of the branches is immaterial. */
  function HeaderMap(n: string): (r: Option<string>)
    ensures r.Some? ==> r.value in CanonicalNames
  {
    if n in {"status do servico/acesorio no cancelamento",
             "status do servico/acessorio no cancelamento"} then
      Some("status_do_contrato")
    else if n in {"valor mensalidade do servico/acesorio", "valor mensalidade do servico/acessorio",
                  "valor mensalidade"} then
      Some("valor_mensalidade")
    else if n in {"servico/acesorio", "servico/acessorio"} then Some("servico_acessorio")
    else if n == "cliente" then Some("cliente")
    else if n == "placa" then Some("placa")
    else if n == "classe" then Some("classe")
    else if n == "termo (contrato)" then Some("termo")
    else if n == "inicio_vigencia" then Some("inicio_vigencia")
    else if n in {"fim_vigencia servico/acesorio", "fim_vigencia servico/acessorio", "fim_vigencia"} then
      Some("fim_vigencia")
    else if n in {"numero de fatura servico/acesorio", "numero de fatura servico/acessorio"} then
      Some("numero_fatura_servico")
    else if n in {"meses restantes (vigencia) do servico/acesorio",
                  "meses restantes (vigencia) do servico/acessorio"} then
      Some("meses_restantes")
    else if n in {"taxa de multa servico/acesorio", "taxa de multa servico/acessorio"} then
      Some("taxa_multa_25pct")
    else if n in {"valor de cancelamento do servico/acesorio",
                  "valor de cancelamento do servico/acessorio"} then
      Some("valor_taxa_cancelamento")
    else if n in {"valor de multa de nao devolucao do servico/acesorio",
                  "valor de multa de nao devolucao do servico/acessorio",
                  "valor de multa de não devolução do servico/acesorio",
                  "valor de multa de não devolução do servico/acessorio"} then
      Some("valor_multa_nao_devolucao")
    else if n == "instalado" then Some("instalado")
    else None
  }

  /** Lower-case ASCII letters, digits and `_`: what canonical names are made of. */
  predicate IsIdentifier(s: string) {
    forall i | 0 <= i < |s| :: 'a' <= s[i] <= 'z' || '0' <= s[i] <= '9' || s[i] == '_'
  }

  lemma IdentifierIsNormalized(s: string)
    requires IsIdentifier(s)
    ensures IsNormalized(s)
  {
  }

  lemma CanonicalNamesAreNormalized()
    ensures forall n | n in CanonicalNames :: IsNormalized(n)
  {
    IdentifiersA();
    IdentifiersB();
    IdentifiersC();
    IdentifiersD();
    IdentifiersE();
    IdentifiersF();
    forall n | n in CanonicalNames ensures IsNormalized(n) {
      IdentifierIsNormalized(n);
    }
  }

  lemma IdentifiersA()
    ensures IsIdentifier("cliente") && IsIdentifier("classe") && IsIdentifier("termo")
  {
  }

  lemma IdentifiersB()
    ensures IsIdentifier("servico_acessorio") && IsIdentifier("placa") && IsIdentifier("inicio_vigencia")
  {
  }

  lemma IdentifiersC()
    ensures IsIdentifier("fim_vigencia") && IsIdentifier("numero_fatura_servico")
    ensures IsIdentifier("valor_mensalidade")
  {
  }

  lemma IdentifiersD()
    ensures IsIdentifier("meses_restantes") && IsIdentifier("taxa_multa_25pct") && IsIdentifier("instalado")
  {
  }

  lemma IdentifiersE()
    ensures IsIdentifier("valor_taxa_cancelamento") && IsIdentifier("status_do_contrato")
  {
  }

  lemma IdentifiersF()
    ensures IsIdentifier("valor_multa_nao_devolucao")
  {
  }

  /** The column name a raw header ends up with: renamed through the table when
      its normalised form is a key (streamlit_app.py:96-97), then normalised
      like every column (streamlit_app.py:98). */
  function CanonicalHeader(raw: string): (r: string)
    ensures HeaderMap(NormalizeText(raw)).Some? ==> r == HeaderMap(NormalizeText(raw)).value
    ensures HeaderMap(NormalizeText(raw)).None? ==> r == NormalizeText(raw)
    ensures IsNormalized(r)
  {
    var n := NormalizeText(raw);
    var renamed := if HeaderMap(n).Some? then HeaderMap(n).value else n;
    CanonicalNamesAreNormalized();
    NormalizeIdempotent(raw);
    NormalizedIsFixed(renamed);
    NormalizeText(renamed)
  }

  /** The column set of the renamed table. */
  function Columns(raw: seq<string>): (cols: set<string>)
    ensures forall h | h in raw :: CanonicalHeader(h) in cols
    ensures forall c | c in cols :: exists h | h in raw :: CanonicalHeader(h) == c
  {
    set h | h in raw :: CanonicalHeader(h)
  }

  /** The table keys spelled with 'ã'/'ç' (streamlit_app.py:92-93) never match,
      since keys are looked up after accent folding. */
  lemma AccentedKeysNeverMatch(raw: string)
    ensures NormalizeText(raw) != "valor de multa de não devolução do servico/acesorio"
    ensures NormalizeText(raw) != "valor de multa de não devolução do servico/acessorio"
  {
    AccentedFirstKey();
    AccentedSecondKey();
    FoldedNeverNormal(NormalizeText(raw), "valor de multa de não devolução do servico/acesorio", 29);
    FoldedNeverNormal(NormalizeText(raw), "valor de multa de não devolução do servico/acessorio", 29);
  }

  lemma AccentedFirstKey()
    ensures |"valor de multa de não devolução do servico/acesorio"| > 29
    ensures IsFolded("valor de multa de não devolução do servico/acesorio"[29])
  {
  }

  lemma AccentedSecondKey()
    ensures |"valor de multa de não devolução do servico/acessorio"| > 29
    ensures IsFolded("valor de multa de não devolução do servico/acessorio"[29])
  {
  }

  /** A text holding a folded letter is not a normalised text. */
  lemma FoldedNeverNormal(n: string, k: string, i: nat)
    requires forall j | 0 <= j < |n| :: !IsFolded(n[j])
    requires i < |k| && IsFolded(k[i])
    ensures n != k
  {
  }

  /** The loose status header is always renamed, so no column keeps it and the
      `elif` at streamlit_app.py:138 is never taken. */
  lemma LooseStatusHeaderNeverSurvives(raw: string)
    ensures CanonicalHeader(raw) != "status do servico/acesorio no cancelamento"
  {
    var key := "status do servico/acesorio no cancelamento";
    var n := NormalizeText(raw);
    if HeaderMap(n).Some? {
      CanonicalNamesAreShort();
    } else {
      LooseStatusKeyIsRenamed();
    }
  }

  lemma CanonicalNamesAreShort()
    ensures forall c | c in CanonicalNames :: |c| < 30
  {
  }

  lemma LooseStatusKeyIsRenamed()
    ensures HeaderMap("status do servico/acesorio no cancelamento") == Some("status_do_contrato")
  {
  }

  /** The long header used for the monthly fee is recognised. */
  lemma MonthlyFeeHeaderExample()
    ensures CanonicalHeader("Valor Mensalidade do Serviço/Acesório") == "valor_mensalidade"
  {
    MonthlyFeeHeaderNormalizes();
    MonthlyFeeKeyIsRenamed();
  }

  lemma MonthlyFeeKeyIsRenamed()
    ensures HeaderMap("valor mensalidade do servico/acesorio") == Some("valor_mensalidade")
  {
  }

  lemma MonthlyFeeHeaderNormalizes()
    ensures NormalizeText("Valor Mensalidade do Serviço/Acesório") == "valor mensalidade do servico/acesorio"
  {
    var raw := "Valor Mensalidade do Serviço/Acesório";
    var a, b := "Valor Mensalidade", " do Serviço/Acesório";
    var la, lb := "valor mensalidade", " do servico/acesorio";
    var n := "valor mensalidade do servico/acesorio";
    MonthlyFeeSplits();
    assert Strip(raw) == raw by { TrimmedExample(); }
    LowerConcat(a, b);
    FoldConcat(Lower(a), Lower(b));
    LowerFoldFirst();
    LowerFoldSecond();
    assert FoldAccents(Lower(raw)) == n;
    NoDoubleSpaceExample();
    CollapseKeepsSingleSpaces(n);
  }

  lemma TrimmedExample()
    ensures Trimmed("Valor Mensalidade do Serviço/Acesório")
  {
  }

  lemma MonthlyFeeSplits()
    ensures "Valor Mensalidade" + " do Serviço/Acesório" == "Valor Mensalidade do Serviço/Acesório"
    ensures "valor mensalidade" + " do servico/acesorio" == "valor mensalidade do servico/acesorio"
  {
  }

  lemma NoDoubleSpaceExample()
    ensures !HasDoubleSpace("valor mensalidade do servico/acesorio")
  {
  }

  lemma LowerFoldFirst()
    ensures FoldAccents(Lower("Valor Mensalidade")) == "valor mensalidade"
  {
  }

  lemma LowerFoldSecond()
    ensures FoldAccents(Lower(" do Serviço/Acesório")) == " do servico/acesorio"
  {
  }

  // ---------------------------------------------------------------------------
  // Required columns
  // ---------------------------------------------------------------------------

  /** Python's string order: code points compared lexicographically. */
  predicate StrLess(a: string, b: string) {
    exists k | 0 <= k < |b| :: k <= |a| && a[..k] == b[..k] && (k == |a| || a[k] < b[k])
  }

  predicate StrictlySorted(xs: seq<string>) {
    forall i, j | 0 <= i < j < |xs| :: StrLess(xs[i], xs[j])
  }

  /** `need` in code-point order. */
  const Required: seq<string> := ["classe", "cliente", "servico_acessorio", "termo", "valor_mensalidade"]

  lemma RequiredIsSorted()
    ensures StrictlySorted(Required)
  {
    assert "classe"[..2] == "cliente"[..2];
    assert "classe"[2] < "cliente"[2];
    assert forall i, j | 0 <= i < j < |Required| && j >= 2 :: Required[i][0] < Required[j][0];
    assert forall i, j | 0 <= i < j < |Required| && j >= 2 :: Required[i][..0] == Required[j][..0];
  }

  /** The elements of `xs` not in `cols`, in their original order. */
  function MissingFrom(xs: seq<string>, cols: set<string>): (r: seq<string>)
    ensures forall x :: x in r <==> x in xs && x !in cols
    ensures StrictlySorted(xs) ==> StrictlySorted(r)
  {
    if xs == [] then []
    else
      var rest := MissingFrom(xs[1..], cols);
      if xs[0] in cols then rest
      else
        assert StrictlySorted(xs) ==> forall x | x in rest :: StrLess(xs[0], x) by {
          if StrictlySorted(xs) {
            forall x | x in rest ensures StrLess(xs[0], x) {
              var j :| 0 <= j < |xs[1..]| && xs[1..][j] == x;
              assert xs[j + 1] == x;
            }
          }
        }
        [xs[0]] + rest
  }

  /** `sorted(need - set(columns))` (streamlit_app.py:101-102). */
  function MissingRequired(cols: set<string>): (r: seq<string>)
    ensures forall x :: x in r <==> x in Required && x !in cols
    ensures StrictlySorted(r)
  {
    RequiredIsSorted();
    MissingFrom(Required, cols)
  }

  /** The schema check on the renamed column set: either the columns, or
      processing stops with the sorted list of missing required fields
      (streamlit_app.py:101-105). */
  function CheckSchema(cols: set<string>): (r: Result<set<string>, seq<string>>)
    ensures r.Success? <==> forall x | x in Required :: x in cols
    ensures r.Success? ==> r.value == cols
    ensures r.Failure? ==> StrictlySorted(r.error)
    ensures r.Failure? ==> forall x :: x in r.error <==> x in Required && x !in cols
  {
    var miss := MissingRequired(cols);
    if |miss| > 0 then
      assert miss[0] in miss;
      Failure(miss)
    else
      Success(cols)
  }
}

=== FILE: pipeline.dfy ===
/** The whole calculation (streamlit_app.py:78-170): header normalisation and
    the schema check, then the derived columns and the two charges for every
    row. "Today" is a parameter (a day number). */
module Pipeline {
  import opened Wrappers
  import opened Text
  import opened Headers
  import opened Status
  import opened Records
  import opened Derive
  import opened Charges

  /** Every derived figure of row `i`, given the derived columns. */
  function ChargeRow(t: Table, r: Row, meses: real, multa25: real, s: Status): (c: Charged)
    ensures c.row == r && c.mesesRestantes == meses && c.taxaMulta25 == multa25 && c.status == s
    ensures c.valorTaxaCancelamento == FeeOrZero(t, "valor_taxa_cancelamento", r.valorTaxaCancelamento)
    ensures c.valorMultaNaoDevolucao == FeeOrZero(t, "valor_multa_nao_devolucao", r.valorMultaNaoDevolucao)
    ensures c.comDevolucao == WithReturn(s, multa25, c.valorTaxaCancelamento)
    ensures c.semDevolucao == WithoutReturn(s, multa25, c.valorMultaNaoDevolucao)
  {
    var taxa := FeeOrZero(t, "valor_taxa_cancelamento", r.valorTaxaCancelamento);
    var multa := FeeOrZero(t, "valor_multa_nao_devolucao", r.valorMultaNaoDevolucao);
    Charged(r, meses, multa25, taxa, multa, s, WithReturn(s, multa25, taxa), WithoutReturn(s, multa25, multa))
  }

  /** The calculation on a table whose headers are already canonical
      (streamlit_app.py:115-170). */
  function Process(rule: TextRule, t: Table, today: int): (out: seq<Charged>)
    ensures |out| == |t.rows|
    ensures forall i | 0 <= i < |out| :: out[i].row == t.rows[i]
    ensures !MesesComplete(t) ==> forall i | 0 <= i < |out| :: out[i].mesesRestantes >= 0.0
    ensures forall i | 0 <= i < |out| :: out[i].status == SemVigenciaNaoInstalado ==>
      out[i].comDevolucao == 0.0 && out[i].semDevolucao == 0.0
  {
    var ms := DeriveMeses(t, today);
    var xs := DeriveTaxa(t, ms);
    var st := DeriveStatus(rule, t, ms);
    seq(|t.rows|, i requires 0 <= i < |t.rows| => ChargeRow(t, t.rows[i], ms[i], xs[i], st[i]))
  }

  /** The full pipeline from raw headers: stop with the sorted missing
      required fields, or compute every row (streamlit_app.py:96-170). */
  function Run(rule: TextRule, headers: seq<string>, rows: seq<Row>, today: int)
    : (r: Result<seq<Charged>, seq<string>>)
    ensures r.Failure? <==> exists x | x in Required :: x !in Columns(headers)
    ensures r.Failure? ==> StrictlySorted(r.error)
    ensures r.Failure? ==> forall x :: x in r.error <==> x in Required && x !in Columns(headers)
    ensures r.Success? ==> r.value == Process(rule, Table(Columns(headers), rows), today)
    ensures r.Success? ==> |r.value| == |rows|
  {
    var cols :- CheckSchema(Columns(headers));
    Success(Process(rule, Table(cols, rows), today))
  }

  // ---------------------------------------------------------------------------
  // Properties of the calculation
  // ---------------------------------------------------------------------------

  /** Every amount a row supplies is non-negative. */
  predicate AmountsNonNegative(r: Row) {
    && r.valorMensalidade.GetOr(0.0) >= 0.0
    && r.valorTaxaCancelamento.GetOr(0.0) >= 0.0
    && r.valorMultaNaoDevolucao.GetOr(0.0) >= 0.0
    && r.mesesRestantes.GetOr(0.0) >= 0.0
    && r.taxaMulta25.GetOr(0.0) >= 0.0
  }

  /** Both charges are non-negative when every amount the table supplies is. */
  lemma ChargesAreNonNegative(rule: TextRule, t: Table, today: int)
    requires forall i | 0 <= i < |t.rows| :: AmountsNonNegative(t.rows[i])
    ensures forall c | c in Process(rule, t, today) :: c.comDevolucao >= 0.0 && c.semDevolucao >= 0.0
  {
    var out := Process(rule, t, today);
    forall i | 0 <= i < |out|
      ensures out[i].comDevolucao >= 0.0 && out[i].semDevolucao >= 0.0
    {
      RowChargesNonNegative(rule, t, today, i);
    }
  }

  lemma RowChargesNonNegative(rule: TextRule, t: Table, today: int, i: int)
    requires 0 <= i < |t.rows| && AmountsNonNegative(t.rows[i])
    ensures var out := Process(rule, t, today);
            out[i].comDevolucao >= 0.0 && out[i].semDevolucao >= 0.0
  {
    var out := Process(rule, t, today);
    var ms := DeriveMeses(t, today);
    var xs := DeriveTaxa(t, ms);
    ProcessRow(rule, t, today, i);
    assert ms[i] >= 0.0;
    Penalty25NonNegative(Cell(t, "valor_mensalidade", t.rows[i].valorMensalidade), ms[i]);
    assert xs[i] >= 0.0;
    ChargesNonNegative(out[i].status, xs[i], out[i].valorTaxaCancelamento, out[i].valorMultaNaoDevolucao);
  }

  /** The worked example: fee 1000 for four remaining months, in term and
      installed, cancellation fee 200 and non-return penalty 150, in a table
      that supplies every column but the penalty. */
  lemma WorkedExample(t: Table, today: int)
    requires |t.rows| == 1 && MesesComplete(t) && "taxa_multa_25pct" !in t.columns
    requires "valor_mensalidade" in t.columns && "status_do_contrato" in t.columns
    requires "valor_taxa_cancelamento" in t.columns && "valor_multa_nao_devolucao" in t.columns
    requires t.rows[0].statusText == Some(Name(ComVigenciaInstalado))
    requires t.rows[0].valorMensalidade == Some(1000.0) && t.rows[0].mesesRestantes == Some(4.0)
    requires t.rows[0].valorTaxaCancelamento == Some(200.0) && t.rows[0].valorMultaNaoDevolucao == Some(150.0)
    ensures var out := Process(AsWritten, t, today);
            && out[0].taxaMulta25 == 1000.0
            && out[0].comDevolucao == 1200.0
            && out[0].semDevolucao == 1150.0
  {
    AsWrittenNameRoundTrip(ComVigenciaInstalado);
    InTermRow(t, today, 0);
    Penalty25Example();
  }

  /** A row of an in-term status, in a table that supplies the remaining
      months and every fee but not the penalty, is charged the penalty plus
      the fee that applies. */
  lemma InTermRow(t: Table, today: int, i: int)
    requires 0 <= i < |t.rows|
    requires MesesComplete(t) && "taxa_multa_25pct" !in t.columns
    requires "valor_mensalidade" in t.columns && "status_do_contrato" in t.columns
    requires "valor_taxa_cancelamento" in t.columns && "valor_multa_nao_devolucao" in t.columns
    requires Classify(AsWritten, t.rows[i].statusText.GetOr("")) == ComVigenciaInstalado
    ensures var r := t.rows[i];
            var out := Process(AsWritten, t, today);
            && out[i].taxaMulta25 == Penalty25(r.valorMensalidade, r.mesesRestantes.value)
            && out[i].comDevolucao == out[i].taxaMulta25 + r.valorTaxaCancelamento.GetOr(0.0)
            && out[i].semDevolucao == out[i].taxaMulta25 + r.valorMultaNaoDevolucao.GetOr(0.0)
  {
    assert !TaxaComplete(t);
    assert StatusSourceOf(t) == FromStatusText;
    ProcessRow(AsWritten, t, today, i);
  }

  /** Row `i` of the output is the decision table applied to its derived
      columns. */
  lemma ProcessRow(rule: TextRule, t: Table, today: int, i: int)
    requires 0 <= i < |t.rows|
    ensures var out := Process(rule, t, today);
            var ms := DeriveMeses(t, today);
            && out[i].mesesRestantes == ms[i]
            && out[i].taxaMulta25 == DeriveTaxa(t, ms)[i]
            && out[i].status == RowStatus(rule, StatusSourceOf(t), t.rows[i], ms[i])
            && out[i].valorTaxaCancelamento == FeeOrZero(t, "valor_taxa_cancelamento", t.rows[i].valorTaxaCancelamento)
            && out[i].valorMultaNaoDevolucao == FeeOrZero(t, "valor_multa_nao_devolucao", t.rows[i].valorMultaNaoDevolucao)
            && out[i].comDevolucao == WithReturn(out[i].status, out[i].taxaMulta25, out[i].valorTaxaCancelamento)
            && out[i].semDevolucao == WithoutReturn(out[i].status, out[i].taxaMulta25, out[i].valorMultaNaoDevolucao)
  {
  }

  // ---------------------------------------------------------------------------
  // Processing the exported table again
  // ---------------------------------------------------------------------------

  /** A computed row as it reads back from the detailed export: every derived
      column now present and filled, the status as its canonical name. */
  function ToRow(c: Charged): (r: Row)
    ensures r.mesesRestantes == Some(c.mesesRestantes) && r.taxaMulta25 == Some(c.taxaMulta25)
    ensures r.statusText == Some(Name(c.status))
  {
    c.row.(
      mesesRestantes := Some(c.mesesRestantes),
      taxaMulta25 := Some(c.taxaMulta25),
      valorTaxaCancelamento := Some(c.valorTaxaCancelamento),
      valorMultaNaoDevolucao := Some(c.valorMultaNaoDevolucao),
      statusText := Some(Name(c.status)))
  }

  function Export(t: Table, out: seq<Charged>): (e: Table)
    ensures |e.rows| == |out|
    ensures MesesComplete(e) && TaxaComplete(e)
    ensures StatusSourceOf(e) == FromStatusText
  {
    Table(t.columns + {"meses_restantes", "taxa_multa_25pct", "valor_taxa_cancelamento",
                       "valor_multa_nao_devolucao", "status_do_contrato",
                       "valor_cobrar_com_devolucao", "valor_cobrar_sem_devolucao"},
          seq(|out|, i requires 0 <= i < |out| => ToRow(out[i])))
  }

  /** Two computed rows carry the same derived figures. */
  predicate SameFigures(a: Charged, b: Charged) {
    && a.mesesRestantes == b.mesesRestantes
    && a.taxaMulta25 == b.taxaMulta25
    && a.valorTaxaCancelamento == b.valorTaxaCancelamento
    && a.valorMultaNaoDevolucao == b.valorMultaNaoDevolucao
    && a.status == b.status
    && a.comDevolucao == b.comDevolucao
    && a.semDevolucao == b.semDevolucao
  }

  /** Reading row `i` of the export back: every figure as exported, the
      status reclassified from its name. */
  lemma ReadBack(rule: TextRule, t: Table, today: int, later: int, i: int)
    requires 0 <= i < |t.rows|
    ensures var out := Process(rule, t, today);
            var again := Process(rule, Export(t, out), later);
            && again[i].mesesRestantes == out[i].mesesRestantes
            && again[i].taxaMulta25 == out[i].taxaMulta25
            && again[i].valorTaxaCancelamento == out[i].valorTaxaCancelamento
            && again[i].valorMultaNaoDevolucao == out[i].valorMultaNaoDevolucao
            && again[i].status == Classify(rule, Name(out[i].status))
            && again[i].comDevolucao == WithReturn(again[i].status, again[i].taxaMulta25, again[i].valorTaxaCancelamento)
            && again[i].semDevolucao == WithoutReturn(again[i].status, again[i].taxaMulta25, again[i].valorMultaNaoDevolucao)
  {
    var out := Process(rule, t, today);
    var e := Export(t, out);
    assert e.rows[i] == ToRow(out[i]);
    ProcessRow(rule, e, later, i);
  }

  /** With the corrected status classifier, processing the exported table
      again, on any later day, reproduces every derived figure. */
  lemma ReprocessIsStable(t: Table, today: int, later: int)
    ensures var out := Process(Corrected, t, today);
            var again := Process(Corrected, Export(t, out), later);
            |again| == |out| && forall i | 0 <= i < |out| :: SameFigures(again[i], out[i])
  {
    var out := Process(Corrected, t, today);
    var again := Process(Corrected, Export(t, out), later);
    forall i | 0 <= i < |out| ensures SameFigures(again[i], out[i]) {
      ReadBack(Corrected, t, today, later, i);
      ProcessRow(Corrected, t, today, i);
      CorrectedNameRoundTrip(out[i].status);
    }
  }

  /** As written, a second pass reads "Sem vigência e não instalado" back as
      "Sem vigência e instalado", so the charge with return changes exactly
      on such rows that carry a cancellation fee. */
  lemma ReprocessAsWritten(t: Table, today: int, later: int)
    ensures var out := Process(AsWritten, t, today);
            var again := Process(AsWritten, Export(t, out), later);
            && |again| == |out|
            && forall i | 0 <= i < |out| ::
                 again[i].comDevolucao == out[i].comDevolucao <==>
                   out[i].status != SemVigenciaNaoInstalado || out[i].valorTaxaCancelamento == 0.0
  {
    var out := Process(AsWritten, t, today);
    var again := Process(AsWritten, Export(t, out), later);
    forall i | 0 <= i < |out|
      ensures again[i].comDevolucao == out[i].comDevolucao <==>
        out[i].status != SemVigenciaNaoInstalado || out[i].valorTaxaCancelamento == 0.0
    {
      ReadBack(AsWritten, t, today, later, i);
      ProcessRow(AsWritten, t, today, i);
      AsWrittenNameRoundTrip(out[i].status);
    }
  }

  /** A concrete row on which the second pass changes the charge: expired,
      no status or `instalado` column, cancellation fee 200. The table has
      every required column, so the schema check lets it through. */
  lemma ReprocessCounterexample(today: int)
    ensures var row := Row("c1", "k1", "t1", "s1", None, Some(100.0), false, None, None,
                           Some(200.0), None, None);
            var t := Table({"classe", "cliente", "servico_acessorio", "termo", "valor_mensalidade",
                            "valor_taxa_cancelamento"}, [row]);
            var out := Process(AsWritten, t, today);
            var again := Process(AsWritten, Export(t, out), today);
            out[0].comDevolucao == 0.0 && again[0].comDevolucao == 200.0
  {
    var row := Row("c1", "k1", "t1", "s1", None, Some(100.0), false, None, None,
                   Some(200.0), None, None);
    var t := Table({"classe", "cliente", "servico_acessorio", "termo", "valor_mensalidade",
                    "valor_taxa_cancelamento"}, [row]);
    assert !MesesComplete(t);
    assert StatusSourceOf(t) == FromMonths;
    ProcessRow(AsWritten, t, today, 0);
    var out := Process(AsWritten, t, today);
    assert out[0].status == SemVigenciaNaoInstalado;
    ReadBack(AsWritten, t, today, today, 0);
    AsWrittenNameRoundTrip(SemVigenciaNaoInstalado);
  }
}

=== FILE: query.dfy ===
/** The query layer over computed rows (streamlit_app.py:194-245): AND-combined
    selections and inclusive charge ranges, the default slider ranges, and the
    grouped summary. */
module Query {
  import opened Wrappers
  import opened Status
  import opened Records

  // ---------------------------------------------------------------------------
  // Filters
  // ---------------------------------------------------------------------------

  /** An inclusive range, as pandas' `between`. */
  datatype Range = Range(lo: real, hi: real)

  predicate Between(x: real, r: Range) {
    r.lo <= x <= r.hi
  }

  /** One filter step of streamlit_app.py:207-213. */
  datatype Test =
    | ClienteIn(clientes: set<string>)
    | ClasseIn(classes: set<string>)
    | TermoIn(termos: set<string>)
    | ServicoIn(servicos: set<string>)
    | StatusIn(status: set<Status>)
    | ChargesWithin(com: Range, sem: Range)

  predicate Holds(t: Test, c: Charged) {
    match t
    case ClienteIn(s) => c.row.cliente in s
    case ClasseIn(s) => c.row.classe in s
    case TermoIn(s) => c.row.termo in s
    case ServicoIn(s) => c.row.servicoAcessorio in s
    case StatusIn(s) => c.status in s
    case ChargesWithin(com, sem) => Between(c.comDevolucao, com) && Between(c.semDevolucao, sem)
  }

  /** The row passes every test of `ts`. */
  predicate HoldsAll(ts: seq<Test>, c: Charged)
    decreases |ts|
  {
    ts == [] || (Holds(ts[0], c) && HoldsAll(ts[1..], c))
  }

  /** `a` is `b` with some elements deleted, order kept. */
  predicate IsSubsequence<T(==)>(a: seq<T>, b: seq<T>)
    decreases |b|
  {
    if a == [] then true
    else if b == [] then false
    else if a[0] == b[0] then IsSubsequence(a[1..], b[1..])
    else IsSubsequence(a, b[1..])
  }

  /** The rows passing every test, in order. */
  function Where(rows: seq<Charged>, ts: seq<Test>): (r: seq<Charged>)
    ensures forall c :: c in r <==> c in rows && HoldsAll(ts, c)
    ensures forall c :: multiset(r)[c] == if HoldsAll(ts, c) then multiset(rows)[c] else 0
    ensures IsSubsequence(r, rows)
    ensures |r| <= |rows|
    decreases |rows|
  {
    if rows == [] then []
    else
      assert rows == [rows[0]] + rows[1..];
      if HoldsAll(ts, rows[0]) then [rows[0]] + Where(rows[1..], ts)
    else
      var rest := Where(rows[1..], ts);
      assert rest != [] ==> rest[0] != rows[0] by {
        if rest != [] { assert rest[0] in rest; }
      }
      rest
  }

  lemma {:induction false} WhereOfWhere(rows: seq<Charged>, t: Test, ts: seq<Test>)
    ensures Where(Where(rows, [t]), ts) == Where(rows, [t] + ts)
    decreases |rows|
  {
    if rows != [] {
      var c, rest := rows[0], rows[1..];
      WhereOfWhere(rest, t, ts);
      assert ([t] + ts)[1..] == ts;
      assert [t][1..] == [];
      if Holds(t, c) {
        var w := Where(rest, [t]);
        assert HoldsAll([t], c);
        assert Where(rows, [t]) == [c] + w;
        assert ([c] + w)[0] == c && ([c] + w)[1..] == w;
        if HoldsAll(ts, c) {
          assert Where([c] + w, ts) == [c] + Where(w, ts);
        } else {
          assert Where([c] + w, ts) == Where(w, ts);
        }
      }
    }
  }

  /** The filters applied one after another. */
  function Chain(rows: seq<Charged>, ts: seq<Test>): seq<Charged>
    decreases |ts|
  {
    if ts == [] then rows else Chain(Where(rows, [ts[0]]), ts[1..])
  }

  /** Filtering one step at a time is filtering by the conjunction. */
  lemma {:induction false} ChainIsConjunction(rows: seq<Charged>, ts: seq<Test>)
    ensures Chain(rows, ts) == Where(rows, ts)
    decreases |ts|
  {
    if ts == [] {
      WhereNothing(rows);
    } else {
      ChainIsConjunction(Where(rows, [ts[0]]), ts[1..]);
      WhereOfWhere(rows, ts[0], ts[1..]);
      assert [ts[0]] + ts[1..] == ts;
    }
  }

  lemma {:induction false} WhereNothing(rows: seq<Charged>)
    ensures Where(rows, []) == rows
    decreases |rows|
  {
    if rows != [] {
      WhereNothing(rows[1..]);
    }
  }

  /** The operator's choices: a selection per dimension (empty = no filter)
      and the two charge ranges. */
  datatype Selection = Selection(
    clientes: set<string>,
    classes: set<string>,
    termos: set<string>,
    servicos: set<string>,
    status: set<Status>,
    com: Range,
    sem: Range)

  /** A computed row meets the selection. */
  predicate Keep(f: Selection, c: Charged) {
    && (f.clientes == {} || c.row.cliente in f.clientes)
    && (f.classes == {} || c.row.classe in f.classes)
    && (f.termos == {} || c.row.termo in f.termos)
    && (f.servicos == {} || c.row.servicoAcessorio in f.servicos)
    && (f.status == {} || c.status in f.status)
    && Between(c.comDevolucao, f.com)
    && Between(c.semDevolucao, f.sem)
  }

  /** `ts` with `t` in front when `active`. */
  function PrependIf(active: bool, t: Test, ts: seq<Test>): (r: seq<Test>)
    ensures forall c :: HoldsAll(r, c) <==> (active ==> Holds(t, c)) && HoldsAll(ts, c)
  {
    if active then
      assert ([t] + ts)[1..] == ts;
      [t] + ts
    else ts
  }

  /** The filter steps the code applies: one per non-empty selection, then
      both ranges (streamlit_app.py:207-213). */
  function Tests(f: Selection): (ts: seq<Test>)
    ensures forall c :: HoldsAll(ts, c) <==> Keep(f, c)
  {
    var last := [ChargesWithin(f.com, f.sem)];
    assert last[1..] == [];
    var t5 := PrependIf(f.status != {}, StatusIn(f.status), last);
    var t4 := PrependIf(f.servicos != {}, ServicoIn(f.servicos), t5);
    var t3 := PrependIf(f.termos != {}, TermoIn(f.termos), t4);
    var t2 := PrependIf(f.classes != {}, ClasseIn(f.classes), t3);
    var t1 := PrependIf(f.clientes != {}, ClienteIn(f.clientes), t2);
    assert forall c :: HoldsAll(t1, c) <==> Keep(f, c) by {
      forall c ensures HoldsAll(t1, c) <==> Keep(f, c) {
        assert HoldsAll(last, c) <==> Holds(last[0], c);
      }
    }
    t1
  }

  /** The filtered table `f` (streamlit_app.py:206-213): an order-preserving
      subsequence holding exactly the rows that meet the selection. */
  function ApplySelection(f: Selection, rows: seq<Charged>): (r: seq<Charged>)
    ensures forall c :: c in r <==> c in rows && Keep(f, c)
    ensures IsSubsequence(r, rows)
    ensures r == Where(rows, Tests(f))
  {
    ChainIsConjunction(rows, Tests(f));
    Chain(rows, Tests(f))
  }

  // ---------------------------------------------------------------------------
  // Default slider ranges
  // ---------------------------------------------------------------------------

  function Min(xs: seq<real>): (m: real)
    requires |xs| > 0
    ensures m in xs && forall x | x in xs :: m <= x
  {
    if |xs| == 1 then xs[0]
    else
      var m := Min(xs[1..]);
      assert forall x | x in xs :: x == xs[0] || x in xs[1..];
      if xs[0] <= m then xs[0] else m
  }

  function Max(xs: seq<real>): (m: real)
    requires |xs| > 0
    ensures m in xs && forall x | x in xs :: x <= m
  {
    if |xs| == 1 then xs[0]
    else
      var m := Max(xs[1..]);
      assert forall x | x in xs :: x == xs[0] || x in xs[1..];
      if xs[0] >= m then xs[0] else m
  }

  /** `np.floor` and `np.ceil`. */
  function Floor(x: real): (r: int)
    ensures r as real <= x < r as real + 1.0
  {
    x.Floor
  }

  function Ceil(x: real): (r: int)
    ensures r as real - 1.0 < x <= r as real
  {
    -Floor(-x)
  }

  /** The slider's initial range, `[floor(min), ceil(max)]`
      (streamlit_app.py:194-203); none for an empty table, whose minimum is
      undefined. */
  function DefaultRange(xs: seq<real>): (r: Option<Range>)
    ensures r.None? <==> |xs| == 0
    ensures r.Some? ==> forall x | x in xs :: Between(x, r.value)
    ensures r.Some? ==> r.value.lo > Min(xs) - 1.0 && r.value.hi < Max(xs) + 1.0
  {
    if |xs| == 0 then None else Some(Range(Floor(Min(xs)) as real, Ceil(Max(xs)) as real))
  }

  function ComCharges(rows: seq<Charged>): (xs: seq<real>)
    ensures |xs| == |rows| && forall i | 0 <= i < |rows| :: xs[i] == rows[i].comDevolucao
  {
    seq(|rows|, i requires 0 <= i < |rows| => rows[i].comDevolucao)
  }

  function SemCharges(rows: seq<Charged>): (xs: seq<real>)
    ensures |xs| == |rows| && forall i | 0 <= i < |rows| :: xs[i] == rows[i].semDevolucao
  {
    seq(|rows|, i requires 0 <= i < |rows| => rows[i].semDevolucao)
  }

  /** Left at their defaults (no selection, both sliders at their initial
      range), the filters keep every row. */
  lemma DefaultSelectionKeepsAll(rows: seq<Charged>)
    requires |rows| > 0
    ensures var f := Selection({}, {}, {}, {}, {},
                               DefaultRange(ComCharges(rows)).value, DefaultRange(SemCharges(rows)).value);
            ApplySelection(f, rows) == rows
  {
    var f := Selection({}, {}, {}, {}, {},
                       DefaultRange(ComCharges(rows)).value, DefaultRange(SemCharges(rows)).value);
    forall c | c in rows ensures Keep(f, c) {
      var i :| 0 <= i < |rows| && rows[i] == c;
      assert ComCharges(rows)[i] in ComCharges(rows);
      assert SemCharges(rows)[i] in SemCharges(rows);
    }
    WhereKeepsAll(rows, Tests(f));
  }

  lemma {:induction false} WhereKeepsAll(rows: seq<Charged>, ts: seq<Test>)
    requires forall c | c in rows :: HoldsAll(ts, c)
    ensures Where(rows, ts) == rows
    decreases |rows|
  {
    if rows != [] {
      WhereKeepsAll(rows[1..], ts);
    }
  }

  // ---------------------------------------------------------------------------
  // Grouped summary
  // ---------------------------------------------------------------------------

  /** A grouping dimension of streamlit_app.py:238. */
  datatype GroupField = ByCliente | ByClasse | ByTermo

  function FieldOf(g: GroupField, c: Charged): string {
    match g
    case ByCliente => c.row.cliente
    case ByClasse => c.row.classe
    case ByTermo => c.row.termo
  }

  /** The group key of a row, in the order the fields were chosen. */
  function KeyOf(fields: seq<GroupField>, c: Charged): (k: seq<string>)
    ensures |k| == |fields| && forall i | 0 <= i < |fields| :: k[i] == FieldOf(fields[i], c)
  {
    seq(|fields|, i requires 0 <= i < |fields| => FieldOf(fields[i], c))
  }

  /** One line of the summary: distinct contracts (`|termos|`), accessories,
      and the two totals. */
  datatype Summary = Summary(key: seq<string>, termos: set<string>, acessorios: nat, totalCom: real, totalSem: real)

  /** The rows of a group, in order. */
  function RowsWithKey(fields: seq<GroupField>, rows: seq<Charged>, k: seq<string>): (r: seq<Charged>)
    ensures forall c :: c in r <==> c in rows && KeyOf(fields, c) == k
    decreases |rows|
  {
    if rows == [] then []
    else
      var prefix := rows[..|rows| - 1];
      var last := rows[|rows| - 1];
      assert rows == prefix + [last];
      RowsWithKey(fields, prefix, k) + (if KeyOf(fields, last) == k then [last] else [])
  }

  /** The distinct contracts among some rows. */
  function Termos(rows: seq<Charged>): (s: set<string>)
    ensures forall t :: t in s <==> exists c | c in rows :: c.row.termo == t
  {
    set c | c in rows :: c.row.termo
  }

  /** Sum of the charge with return (pandas' `sum`). */
  function TotalCom(rows: seq<Charged>): real
    decreases |rows|
  {
    if rows == [] then 0.0 else TotalCom(rows[..|rows| - 1]) + rows[|rows| - 1].comDevolucao
  }

  /** Sum of the charge without return. */
  function TotalSem(rows: seq<Charged>): real
    decreases |rows|
  {
    if rows == [] then 0.0 else TotalSem(rows[..|rows| - 1]) + rows[|rows| - 1].semDevolucao
  }

  /** A summary line agrees with the rows of its group. */
  predicate Describes(fields: seq<GroupField>, rows: seq<Charged>, g: Summary) {
    var grp := RowsWithKey(fields, rows, g.key);
    && g.acessorios == |grp|
    && g.termos == Termos(grp)
    && g.totalCom == TotalCom(grp)
    && g.totalSem == TotalSem(grp)
  }

  function FindKey(gs: seq<Summary>, k: seq<string>): (r: Option<nat>)
    ensures r.Some? ==> r.value < |gs| && gs[r.value].key == k
    ensures r.None? ==> k !in Keys(gs)
    decreases |gs|
  {
    if gs == [] then None
    else if gs[|gs| - 1].key == k then Some(|gs| - 1)
    else
      assert gs == gs[..|gs| - 1] + [gs[|gs| - 1]];
      FindKey(gs[..|gs| - 1], k)
  }

  /** One more row in an existing summary line. */
  function Merge(g: Summary, c: Charged): Summary {
    g.(termos := g.termos + {c.row.termo},
       acessorios := g.acessorios + 1,
       totalCom := g.totalCom + c.comDevolucao,
       totalSem := g.totalSem + c.semDevolucao)
  }

  /** Adds one row to its group, opening the group if it is new. */
  function AddRow(gs: seq<Summary>, k: seq<string>, c: Charged): seq<Summary> {
    match FindKey(gs, k)
    case Some(p) => gs[p := Merge(gs[p], c)]
    case None => gs + [Summary(k, {c.row.termo}, 1, c.comDevolucao, c.semDevolucao)]
  }

  /** The keys of the summary lines. */
  function Keys(gs: seq<Summary>): set<seq<string>> {
    set g | g in gs :: g.key
  }

  /** The keys of the rows. */
  function RowKeys(fields: seq<GroupField>, rows: seq<Charged>): set<seq<string>> {
    set c | c in rows :: KeyOf(fields, c)
  }

  /** No two summary lines share a key. */
  predicate DistinctKeys(gs: seq<Summary>) {
    forall i, j | 0 <= i < j < |gs| :: gs[i].key != gs[j].key
  }

  /** The rows folded into summary lines, one at a time. */
  function Grouped(fields: seq<GroupField>, rows: seq<Charged>): seq<Summary>
    decreases |rows|
  {
    if rows == [] then []
    else AddRow(Grouped(fields, rows[..|rows| - 1]), KeyOf(fields, rows[|rows| - 1]), rows[|rows| - 1])
  }

  lemma {:induction false} GroupedShape(fields: seq<GroupField>, rows: seq<Charged>)
    ensures DistinctKeys(Grouped(fields, rows))
    ensures Keys(Grouped(fields, rows)) == RowKeys(fields, rows)
    ensures forall i | 0 <= i < |Grouped(fields, rows)| :: Describes(fields, rows, Grouped(fields, rows)[i])
    decreases |rows|
  {
    if rows != [] {
      var prefix := rows[..|rows| - 1];
      var last := rows[|rows| - 1];
      assert rows == prefix + [last];
      GroupedShape(fields, prefix);
      var gs := Grouped(fields, prefix);
      AddRowShape(gs, KeyOf(fields, last), last);
      RowKeysSnoc(fields, prefix, last);
      AddRowDescribes(fields, prefix, gs, last);
    }
  }

  /** `groupby(campos).agg(...)` (streamlit_app.py:238-245): one line per
      distinct key, in order of first appearance, each describing its group. */
  function Summarize(fields: seq<GroupField>, rows: seq<Charged>): (gs: seq<Summary>)
    ensures DistinctKeys(gs)
    ensures Keys(gs) == RowKeys(fields, rows)
    ensures forall i | 0 <= i < |gs| :: Describes(fields, rows, gs[i])
  {
    GroupedShape(fields, rows);
    Grouped(fields, rows)
  }

  lemma RowKeysSnoc(fields: seq<GroupField>, prefix: seq<Charged>, last: Charged)
    ensures RowKeys(fields, prefix + [last]) == RowKeys(fields, prefix) + {KeyOf(fields, last)}
  {
    assert forall c :: c in prefix + [last] <==> c in prefix || c == last;
  }

  lemma RowsWithKeySnoc(fields: seq<GroupField>, prefix: seq<Charged>, last: Charged, k: seq<string>)
    ensures RowsWithKey(fields, prefix + [last], k)
         == RowsWithKey(fields, prefix, k) + (if KeyOf(fields, last) == k then [last] else [])
  {
    assert (prefix + [last])[..|prefix + [last]| - 1] == prefix;
  }

  /** Adding a row keeps the keys distinct and adds its key. */
  lemma AddRowShape(gs: seq<Summary>, k: seq<string>, c: Charged)
    requires DistinctKeys(gs)
    ensures DistinctKeys(AddRow(gs, k, c))
    ensures Keys(AddRow(gs, k, c)) == Keys(gs) + {k}
  {
    match FindKey(gs, k)
    case Some(p) => MergedShape(gs, p, Merge(gs[p], c));
    case None => OpenedShape(gs, Summary(k, {c.row.termo}, 1, c.comDevolucao, c.semDevolucao));
  }

  lemma MergedShape(gs: seq<Summary>, p: nat, x: Summary)
    requires p < |gs| && x.key == gs[p].key
    requires DistinctKeys(gs)
    ensures DistinctKeys(gs[p := x])
    ensures Keys(gs[p := x]) == Keys(gs)
  {
    var r := gs[p := x];
    assert forall i | 0 <= i < |r| :: r[i].key == gs[i].key;
    forall y | y in Keys(r) ensures y in Keys(gs) {
      var g :| g in r && g.key == y;
      var i :| 0 <= i < |r| && r[i] == g;
      assert gs[i] in gs;
    }
    forall y | y in Keys(gs) ensures y in Keys(r) {
      var g :| g in gs && g.key == y;
      var i :| 0 <= i < |gs| && gs[i] == g;
      assert r[i] in r;
    }
  }

  lemma OpenedShape(gs: seq<Summary>, x: Summary)
    requires DistinctKeys(gs) && x.key !in Keys(gs)
    ensures DistinctKeys(gs + [x])
    ensures Keys(gs + [x]) == Keys(gs) + {x.key}
  {
    var r := gs + [x];
    assert forall g :: g in r <==> g in gs || g == x;
    forall i | 0 <= i < |gs| ensures r[i].key != x.key {
      assert gs[i] in gs;
    }
  }

  /** Adding a row to its group keeps every line describing its group. */
  lemma AddRowDescribes(fields: seq<GroupField>, prefix: seq<Charged>, gs: seq<Summary>, last: Charged)
    requires DistinctKeys(gs)
    requires Keys(gs) == RowKeys(fields, prefix)
    requires forall i | 0 <= i < |gs| :: Describes(fields, prefix, gs[i])
    ensures var r := AddRow(gs, KeyOf(fields, last), last);
            forall i | 0 <= i < |r| :: Describes(fields, prefix + [last], r[i])
  {
    match FindKey(gs, KeyOf(fields, last))
    case Some(p) => MergedDescribes(fields, prefix, gs, last, p);
    case None => OpenedDescribes(fields, prefix, gs, last);
  }

  lemma MergedDescribes(fields: seq<GroupField>, prefix: seq<Charged>, gs: seq<Summary>, last: Charged, p: nat)
    requires p < |gs| && gs[p].key == KeyOf(fields, last)
    requires DistinctKeys(gs)
    requires forall i | 0 <= i < |gs| :: Describes(fields, prefix, gs[i])
    ensures var r := gs[p := Merge(gs[p], last)];
            forall i | 0 <= i < |r| :: Describes(fields, prefix + [last], r[i])
  {
    var k := KeyOf(fields, last);
    var r := gs[p := Merge(gs[p], last)];
    forall i | 0 <= i < |r| ensures Describes(fields, prefix + [last], r[i]) {
      if i == p {
        var grp := RowsWithKey(fields, prefix, k);
        RowsWithKeySnoc(fields, prefix, last, k);
        MergeDescribes(grp, last);
      } else {
        UntouchedDescribes(fields, prefix, gs[i], last);
      }
    }
  }

  lemma OpenedDescribes(fields: seq<GroupField>, prefix: seq<Charged>, gs: seq<Summary>, last: Charged)
    requires KeyOf(fields, last) !in Keys(gs)
    requires Keys(gs) == RowKeys(fields, prefix)
    requires forall i | 0 <= i < |gs| :: Describes(fields, prefix, gs[i])
    ensures var k := KeyOf(fields, last);
            var r := gs + [Summary(k, {last.row.termo}, 1, last.comDevolucao, last.semDevolucao)];
            forall i | 0 <= i < |r| :: Describes(fields, prefix + [last], r[i])
  {
    var k := KeyOf(fields, last);
    var r := gs + [Summary(k, {last.row.termo}, 1, last.comDevolucao, last.semDevolucao)];
    forall i | 0 <= i < |r| ensures Describes(fields, prefix + [last], r[i]) {
      if i == |gs| {
        NoRowsWithNewKey(fields, prefix, k);
        RowsWithKeySnoc(fields, prefix, last, k);
        MergeDescribes([], last);
      } else {
        assert gs[i] in gs;
        UntouchedDescribes(fields, prefix, gs[i], last);
      }
    }
  }

  lemma UntouchedDescribes(fields: seq<GroupField>, prefix: seq<Charged>, g: Summary, last: Charged)
    requires Describes(fields, prefix, g) && g.key != KeyOf(fields, last)
    ensures Describes(fields, prefix + [last], g)
  {
    RowsWithKeySnoc(fields, prefix, last, g.key);
    var grp := RowsWithKey(fields, prefix, g.key);
    assert grp + [] == grp;
    assert RowsWithKey(fields, prefix + [last], g.key) == grp;
  }

  lemma MergeDescribes(grp: seq<Charged>, c: Charged)
    ensures |grp + [c]| == |grp| + 1
    ensures Termos(grp + [c]) == Termos(grp) + {c.row.termo}
    ensures TotalCom(grp + [c]) == TotalCom(grp) + c.comDevolucao
    ensures TotalSem(grp + [c]) == TotalSem(grp) + c.semDevolucao
  {
    assert (grp + [c])[..|grp + [c]| - 1] == grp;
  }

  lemma NoRowsWithNewKey(fields: seq<GroupField>, prefix: seq<Charged>, k: seq<string>)
    requires k !in RowKeys(fields, prefix)
    ensures RowsWithKey(fields, prefix, k) == []
  {
  }

  // ---------------------------------------------------------------------------
  // Totals of the summary
  // ---------------------------------------------------------------------------

  /** A summed column of the summary. */
  datatype Measure = Accessories | TotalWithReturn | TotalWithoutReturn

  function MeasureOf(m: Measure, g: Summary): real {
    match m
    case Accessories => g.acessorios as real
    case TotalWithReturn => g.totalCom
    case TotalWithoutReturn => g.totalSem
  }

  /** The column summed over every summary line. */
  function SumOf(gs: seq<Summary>, m: Measure): real
    decreases |gs|
  {
    if gs == [] then 0.0 else SumOf(gs[..|gs| - 1], m) + MeasureOf(m, gs[|gs| - 1])
  }

  lemma SumSnoc(gs: seq<Summary>, x: Summary, m: Measure)
    ensures SumOf(gs + [x], m) == SumOf(gs, m) + MeasureOf(m, x)
  {
    assert (gs + [x])[..|gs + [x]| - 1] == gs;
  }

  lemma {:induction false} SumUpdate(gs: seq<Summary>, p: nat, x: Summary, m: Measure)
    requires p < |gs|
    ensures SumOf(gs[p := x], m) == SumOf(gs, m) - MeasureOf(m, gs[p]) + MeasureOf(m, x)
    decreases |gs|
  {
    var n := |gs| - 1;
    var u := gs[p := x];
    assert u[..n] == if p == n then gs[..n] else gs[..n][p := x];
    if p < n {
      SumUpdate(gs[..n], p, x, m);
    }
  }

  /** The share of one row in a summed column. */
  function RowShare(m: Measure, c: Charged): real {
    match m
    case Accessories => 1.0
    case TotalWithReturn => c.comDevolucao
    case TotalWithoutReturn => c.semDevolucao
  }

  /** Adding a row raises each column of the summary by that row's share. */
  lemma AddRowSum(gs: seq<Summary>, k: seq<string>, c: Charged, m: Measure)
    ensures SumOf(AddRow(gs, k, c), m) == SumOf(gs, m) + RowShare(m, c)
  {
    match FindKey(gs, k)
    case Some(p) =>
      SumUpdate(gs, p, Merge(gs[p], c), m);
    case None =>
      SumSnoc(gs, Summary(k, {c.row.termo}, 1, c.comDevolucao, c.semDevolucao), m);
  }

  /** The same column summed over the rows themselves. */
  function RowMeasure(m: Measure, rows: seq<Charged>): real {
    match m
    case Accessories => |rows| as real
    case TotalWithReturn => TotalCom(rows)
    case TotalWithoutReturn => TotalSem(rows)
  }

  lemma {:induction false} SummarySum(fields: seq<GroupField>, rows: seq<Charged>, m: Measure)
    ensures SumOf(Grouped(fields, rows), m) == RowMeasure(m, rows)
    decreases |rows|
  {
    if rows != [] {
      var prefix := rows[..|rows| - 1];
      var last := rows[|rows| - 1];
      assert Grouped(fields, rows) == AddRow(Grouped(fields, prefix), KeyOf(fields, last), last);
      SummarySum(fields, prefix, m);
      AddRowSum(Grouped(fields, prefix), KeyOf(fields, last), last, m);
      RowMeasureSnoc(m, rows);
    }
  }

  lemma RowMeasureSnoc(m: Measure, rows: seq<Charged>)
    requires rows != []
    ensures RowMeasure(m, rows) == RowMeasure(m, rows[..|rows| - 1]) + RowShare(m, rows[|rows| - 1])
  {
  }

  /** The summary accounts for every row once: its accessory counts add up
      to the number of rows and its totals to the totals of the rows. */
  lemma SummaryAccountsForEveryRow(fields: seq<GroupField>, rows: seq<Charged>)
    ensures SumOf(Summarize(fields, rows), Accessories) == |rows| as real
    ensures SumOf(Summarize(fields, rows), TotalWithReturn) == TotalCom(rows)
    ensures SumOf(Summarize(fields, rows), TotalWithoutReturn) == TotalSem(rows)
  {
    SummarySum(fields, rows, Accessories);
    SummarySum(fields, rows, TotalWithReturn);
    SummarySum(fields, rows, TotalWithoutReturn);
  }

  lemma {:induction false} TermosAtMostRows(rows: seq<Charged>)
    ensures |Termos(rows)| <= |rows|
    decreases |rows|
  {
    if rows != [] {
      var prefix := rows[..|rows| - 1];
      var last := rows[|rows| - 1];
      assert rows == prefix + [last];
      TermosAtMostRows(prefix);
      assert Termos(rows) == Termos(prefix) + {last.row.termo};
    }
  }

  /** A summary line never counts more distinct contracts than accessories. */
  lemma ContractsAtMostAccessories(fields: seq<GroupField>, rows: seq<Charged>)
    ensures forall g | g in Summarize(fields, rows) :: 0 < |g.termos| <= g.acessorios
  {
    var gs := Summarize(fields, rows);
    forall g | g in gs ensures 0 < |g.termos| <= g.acessorios {
      var grp := RowsWithKey(fields, rows, g.key);
      TermosAtMostRows(grp);
      assert g.key in Keys(gs);
      var c :| c in rows && KeyOf(fields, c) == g.key;
      assert c in grp;
      assert c.row.termo in g.termos;
    }
  }

  /** The optional summary (streamlit_app.py:236-247): nothing when no
      grouping field is chosen, otherwise one line per group accounting for
      every row. */
  function Resumo(fields: seq<GroupField>, rows: seq<Charged>): (gs: seq<Summary>)
    ensures fields == [] ==> gs == []
    ensures fields != [] ==> Keys(gs) == RowKeys(fields, rows)
    ensures fields != [] ==> DistinctKeys(gs)
    ensures fields != [] ==> forall i | 0 <= i < |gs| :: Describes(fields, rows, gs[i])
    ensures fields != [] ==> SumOf(gs, Accessories) == |rows| as real
    ensures fields != [] ==> SumOf(gs, TotalWithReturn) == TotalCom(rows)
    ensures fields != [] ==> SumOf(gs, TotalWithoutReturn) == TotalSem(rows)
  {
    if fields == [] then []
    else
      SummaryAccountsForEveryRow(fields, rows);
      Summarize(fields, rows)
  }

  // ---------------------------------------------------------------------------
  // Headline figures
  // ---------------------------------------------------------------------------

  /** The four headline figures of the filtered table (streamlit_app.py:219-222). */
  datatype Metrics = Metrics(totalCom: real, totalSem: real, contratos: nat, acessorios: nat)

  function MetricsOf(rows: seq<Charged>): (m: Metrics)
    ensures m.acessorios == |rows|
    ensures m.contratos == |Termos(rows)|
    ensures m.totalCom == TotalCom(rows) && m.totalSem == TotalSem(rows)
    ensures m.contratos <= m.acessorios
    ensures rows != [] ==> m.contratos >= 1
  {
    TermosAtMostRows(rows);
    assert rows != [] ==> rows[0].row.termo in Termos(rows);
    Metrics(TotalCom(rows), TotalSem(rows), |Termos(rows)|, |rows|)
  }

  /** The grouped summary, whatever the grouping, adds up to the headline
      figures. */
  lemma SummaryMatchesMetrics(fields: seq<GroupField>, rows: seq<Charged>)
    ensures var m := MetricsOf(rows);
            var gs := Summarize(fields, rows);
            && SumOf(gs, Accessories) == m.acessorios as real
            && SumOf(gs, TotalWithReturn) == m.totalCom
            && SumOf(gs, TotalWithoutReturn) == m.totalSem
  {
    SummaryAccountsForEveryRow(fields, rows);
  }
}

=== FILE: records.dfy ===
/** The row records of the contract-accessory table, before and after the
    calculation. Cells are typed already: dates are day numbers and amounts
    are reals, as produced by the date and numeric coercion steps, which are
    not part of this model. */
module Records {
  import opened Wrappers
  import opened Status

  /** One accessory or service attached to one contract, keyed by canonical
      field. A field whose column the table lacks is ignored (see `Cell`). */
  datatype Row = Row(
    cliente: string,
    classe: string,
    termo: string,
    servicoAcessorio: string,
    fimVigencia: Option<int>,             // end of term, as a day number
    valorMensalidade: Option<real>,       // monthly fee
    instalado: bool,                      // truth value of the raw `instalado` cell
    mesesRestantes: Option<real>,         // remaining months, when supplied
    taxaMulta25: Option<real>,            // 25% penalty, when supplied
    valorTaxaCancelamento: Option<real>,  // cancellation fee
    valorMultaNaoDevolucao: Option<real>, // non-return penalty
    statusText: Option<string>            // supplied status text
  )

  /** A table: its (canonical) column names and its rows. */
  datatype Table = Table(columns: set<string>, rows: seq<Row>)

  /** A cell of column `col`: missing altogether when the table lacks the
      column. */
  function Cell<T>(t: Table, col: string, v: Option<T>): (r: Option<T>)
    ensures col !in t.columns ==> r.None?
    ensures col in t.columns ==> r == v
  {
    if col in t.columns then v else None
  }

  /** A row with every derived column filled in. */
  datatype Charged = Charged(
    row: Row,
    mesesRestantes: real,
    taxaMulta25: real,
    valorTaxaCancelamento: real,
    valorMultaNaoDevolucao: real,
    status: Status,
    comDevolucao: real,   // `valor_cobrar_com_devolucao`
    semDevolucao: real    // `valor_cobrar_sem_devolucao`
  )
}

=== FILE: status.dfy ===
/** Contract status (streamlit_app.py:129-149): one of four canonical values,
    obtained from supplied status text, from the (months > 0, installed) flags,
    or from the months alone. */
module Status {
  import opened Text

  /** The four canonical values of `status_do_contrato`. */
  datatype Status =
    | ComVigenciaInstalado
    | ComVigenciaNaoInstalado
    | SemVigenciaInstalado
    | SemVigenciaNaoInstalado

  /** The text written into the table for each value. */
  function Name(s: Status): string {
    match s
    case ComVigenciaInstalado => "Com vigência e instalado"
    case ComVigenciaNaoInstalado => "Com vigência e não instalado"
    case SemVigenciaInstalado => "Sem vigência e instalado"
    case SemVigenciaNaoInstalado => "Sem vigência e não instalado"
  }

  /** The contract is still within its term ("com vigência"). */
  predicate InTerm(s: Status) {
    s.ComVigenciaInstalado? || s.ComVigenciaNaoInstalado?
  }

  /** The item is installed. */
  predicate Installed(s: Status) {
    s.ComVigenciaInstalado? || s.SemVigenciaInstalado?
  }

  /** A status is determined by its two axes. */
  lemma AxesDetermineStatus(s: Status, t: Status)
    requires InTerm(s) == InTerm(t) && Installed(s) == Installed(t)
    ensures s == t
  {
  }

  /** The four names are distinct. */
  lemma NamesAreDistinct(s: Status, t: Status)
    requires Name(s) == Name(t)
    ensures s == t
  {
    assert Name(s)[0] == Name(t)[0];
    assert |Name(s)| == |Name(t)|;
  }

  /** `stt.startswith("Com vigência")`, the test the charge calculation makes
      on the status text (streamlit_app.py:159, 165), holds exactly for the
      in-term values. */
  lemma StartsWithComVigenciaIffInTerm(s: Status)
    ensures StartsWith(Name(s), "Com vigência") <==> InTerm(s)
  {
    if !InTerm(s) {
      assert Name(s)[0] == 'S';
      assert Name(s)[..12][0] == 'S';
    }
  }

  // ---------------------------------------------------------------------------
  // From text
  // ---------------------------------------------------------------------------

  /** Which of the searched-for phrases a normalised status text contains. */
  datatype Markers = Markers(com: bool, sem: bool, instalado: bool, naoInstalado: bool)

  function MarkersOf(raw: string): (m: Markers)
    ensures m.naoInstalado ==> m.instalado
  {
    var r := NormalizeText(raw);
    if Contains(r, "nao instalado") then
      ContainsSuffix(r, "nao instalado", 4);
      assert "nao instalado"[4..] == "instalado";
      Markers(Contains(r, "com vigencia"), Contains(r, "sem vigencia"), true, true)
    else
      Markers(Contains(r, "com vigencia"), Contains(r, "sem vigencia"), Contains(r, "instalado"), false)
  }

  /** `normalize_status` as written (streamlit_app.py:129-134): the first
      matching test wins. Because "nao instalado" contains "instalado", the
      second test can only succeed when the first already has, so "Com
      vigência e não instalado" never comes out, and "Sem vigência e não
      instalado" comes out only for text without "instalado" or without a
      vigência marker. */
  function FromText(raw: string): (r: Status)
    ensures r != ComVigenciaNaoInstalado
    ensures InTerm(r) <==> MarkersOf(raw).com && MarkersOf(raw).instalado
    ensures Installed(r) <==> MarkersOf(raw).instalado && (MarkersOf(raw).com || MarkersOf(raw).sem)
  {
    var m := MarkersOf(raw);
    if m.com && m.instalado then ComVigenciaInstalado
    else if m.com && m.naoInstalado then ComVigenciaNaoInstalado
    else if m.sem && m.instalado then SemVigenciaInstalado
    else SemVigenciaNaoInstalado
  }

  /** `normalize_status` with the "nao instalado" tests made before the
      "instalado" ones, so that every canonical name maps back to itself. */
  function FromTextCorrected(raw: string): (r: Status)
    ensures InTerm(r) <==> MarkersOf(raw).com && MarkersOf(raw).instalado
    ensures Installed(r) <==>
      MarkersOf(raw).instalado && !MarkersOf(raw).naoInstalado && (MarkersOf(raw).com || MarkersOf(raw).sem)
  {
    var m := MarkersOf(raw);
    if m.com && m.naoInstalado then ComVigenciaNaoInstalado
    else if m.com && m.instalado then ComVigenciaInstalado
    else if m.sem && m.naoInstalado then SemVigenciaNaoInstalado
    else if m.sem && m.instalado then SemVigenciaInstalado
    else SemVigenciaNaoInstalado
  }

  /** Text with neither vigência marker lands in the default bucket. */
  lemma NoMarkerIsDefault(raw: string)
    requires !MarkersOf(raw).com && !MarkersOf(raw).sem
    ensures FromText(raw) == SemVigenciaNaoInstalado
    ensures FromTextCorrected(raw) == SemVigenciaNaoInstalado
  {
  }

  /** Which status-text classifier the pipeline applies. */
  datatype TextRule = AsWritten | Corrected

  function Classify(rule: TextRule, raw: string): Status {
    match rule
    case AsWritten => FromText(raw)
    case Corrected => FromTextCorrected(raw)
  }

  // --- Markers of the canonical names ---------------------------------------

  lemma NormalizedNames()
    ensures NormalizeText(Name(ComVigenciaInstalado)) == "com vigencia e instalado"
    ensures NormalizeText(Name(ComVigenciaNaoInstalado)) == "com vigencia e nao instalado"
    ensures NormalizeText(Name(SemVigenciaInstalado)) == "sem vigencia e instalado"
    ensures NormalizeText(Name(SemVigenciaNaoInstalado)) == "sem vigencia e nao instalado"
  {
    NormalizedName1();
    NormalizedName2();
    NormalizedName3();
    NormalizedName4();
  }

  lemma NormalizedName1()
    ensures NormalizeText("Com vigência e instalado") == "com vigencia e instalado"
  {
    FoldCom();
    InstalledConcat();
    InstalledSpaces();
    NormalizeInTwoParts("Com vigência e ", "instalado", "com vigencia e ", "instalado");
  }

  lemma NormalizedName2()
    ensures NormalizeText("Com vigência e não instalado") == "com vigencia e nao instalado"
  {
    FoldCom();
    FoldNao();
    AccentedConcat();
    PlainConcat();
    PiecesSpaces();
    NormalizeInTwoParts("Com vigência e ", "não instalado", "com vigencia e ", "nao instalado");
  }

  lemma NormalizedName3()
    ensures NormalizeText("Sem vigência e instalado") == "sem vigencia e instalado"
  {
    FoldSem();
    InstalledConcat();
    InstalledSpaces();
    NormalizeInTwoParts("Sem vigência e ", "instalado", "sem vigencia e ", "instalado");
  }

  lemma NormalizedName4()
    ensures NormalizeText("Sem vigência e não instalado") == "sem vigencia e nao instalado"
  {
    FoldSem();
    FoldNao();
    AccentedConcat();
    PlainConcat();
    PiecesSpaces();
    NormalizeInTwoParts("Sem vigência e ", "não instalado", "sem vigencia e ", "nao instalado");
  }

  // Literal facts behind `NormalizedName1`-`NormalizedName4`, a few per
  // lemma so that each proof stays small.

  lemma InstalledConcat()
    ensures "Com vigência e " + "instalado" == "Com vigência e instalado"
    ensures "Sem vigência e " + "instalado" == "Sem vigência e instalado"
    ensures "com vigencia e " + "instalado" == "com vigencia e instalado"
    ensures "sem vigencia e " + "instalado" == "sem vigencia e instalado"
    ensures FoldAccents(Lower("instalado")) == "instalado"
  {
  }

  lemma InstalledSpaces()
    ensures Trimmed("Com vigência e instalado") && Trimmed("Sem vigência e instalado")
    ensures !HasDoubleSpace("com vigencia e instalado")
    ensures !HasDoubleSpace("sem vigencia e instalado")
  {
  }

  lemma AccentedConcat()
    ensures "Com vigência e " + "não instalado" == "Com vigência e não instalado"
    ensures "Sem vigência e " + "não instalado" == "Sem vigência e não instalado"
  {
  }

  lemma PlainConcat()
    ensures "com vigencia e " + "nao instalado" == "com vigencia e nao instalado"
    ensures "sem vigencia e " + "nao instalado" == "sem vigencia e nao instalado"
  {
  }

  lemma FoldCom()
    ensures FoldAccents(Lower("Com vigência e ")) == "com vigencia e "
  {
  }

  lemma FoldSem()
    ensures FoldAccents(Lower("Sem vigência e ")) == "sem vigencia e "
  {
  }

  lemma FoldNao()
    ensures FoldAccents(Lower("não instalado")) == "nao instalado"
  {
  }

  lemma PiecesSpaces()
    ensures Trimmed("Com vigência e não instalado") && Trimmed("Sem vigência e não instalado")
    ensures !HasDoubleSpace("com vigencia e nao instalado")
    ensures !HasDoubleSpace("sem vigencia e nao instalado")
  {
  }

  /** No position of `s` holds `a` followed by `b`. */
  predicate PairFree(s: string, a: char, b: char) {
    forall i | 0 <= i < |s| - 1 :: !(s[i] == a && s[i + 1] == b)
  }

  /** Refutes `Contains(s, sub)` by the absence of its first two characters. */
  lemma NotContains(s: string, sub: string)
    requires |sub| >= 2
    requires PairFree(s, sub[0], sub[1])
    ensures !Contains(s, sub)
  {
    if Contains(s, sub) {
      ContainsHeadPair(s, sub);
    }
  }

  lemma PairFreeComInstalado()
    ensures PairFree("com vigencia e instalado", 's', 'e') && PairFree("com vigencia e instalado", 'n', 'a')
  {
  }

  lemma PairFreeSemInstalado()
    ensures PairFree("sem vigencia e instalado", 'c', 'o') && PairFree("sem vigencia e instalado", 'n', 'a')
  {
  }

  lemma PairFreeComNao()
    ensures PairFree("com vigencia e nao instalado", 's', 'e')
  {
  }

  lemma PairFreeSemNao()
    ensures PairFree("sem vigencia e nao instalado", 'c', 'o')
  {
  }

  lemma MarkersOfName(s: Status)
    ensures MarkersOf(Name(s)) == Markers(InTerm(s), !InTerm(s), true, !Installed(s))
  {
    NormalizedNames();
    match s
    case ComVigenciaInstalado => MarkersOfName1();
    case ComVigenciaNaoInstalado => MarkersOfName2();
    case SemVigenciaInstalado => MarkersOfName3();
    case SemVigenciaNaoInstalado => MarkersOfName4();
  }

  lemma MarkersOfName1()
    ensures var n := "com vigencia e instalado";
      Contains(n, "com vigencia") && !Contains(n, "sem vigencia")
      && Contains(n, "instalado") && !Contains(n, "nao instalado")
  {
    var n := "com vigencia e instalado";
    PairFreeComInstalado();
    assert OccursAt(n, "com vigencia", 0);
    assert OccursAt(n, "instalado", 15);
    NotContains(n, "sem vigencia");
    NotContains(n, "nao instalado");
  }

  lemma MarkersOfName2()
    ensures var n := "com vigencia e nao instalado";
      Contains(n, "com vigencia") && !Contains(n, "sem vigencia") && Contains(n, "nao instalado")
  {
    var n := "com vigencia e nao instalado";
    PairFreeComNao();
    assert OccursAt(n, "com vigencia", 0);
    assert OccursAt(n, "nao instalado", 15);
    NotContains(n, "sem vigencia");
  }

  lemma MarkersOfName3()
    ensures var n := "sem vigencia e instalado";
      !Contains(n, "com vigencia") && Contains(n, "sem vigencia")
      && Contains(n, "instalado") && !Contains(n, "nao instalado")
  {
    var n := "sem vigencia e instalado";
    PairFreeSemInstalado();
    assert OccursAt(n, "sem vigencia", 0);
    assert OccursAt(n, "instalado", 15);
    NotContains(n, "com vigencia");
    NotContains(n, "nao instalado");
  }

  lemma MarkersOfName4()
    ensures var n := "sem vigencia e nao instalado";
      !Contains(n, "com vigencia") && Contains(n, "sem vigencia") && Contains(n, "nao instalado")
  {
    var n := "sem vigencia e nao instalado";
    PairFreeSemNao();
    assert OccursAt(n, "sem vigencia", 0);
    assert OccursAt(n, "nao instalado", 15);
    NotContains(n, "com vigencia");
  }

  /** The corrected classifier reads every canonical name back as itself. */
  lemma CorrectedNameRoundTrip(s: Status)
    ensures FromTextCorrected(Name(s)) == s
  {
    MarkersOfName(s);
  }

  /** As written, the two "não instalado" names are read back as their
      "instalado" counterparts. */
  lemma AsWrittenNameRoundTrip(s: Status)
    ensures FromText(Name(s)) == (if InTerm(s) then ComVigenciaInstalado else SemVigenciaInstalado)
  {
    MarkersOfName(s);
  }

  // ---------------------------------------------------------------------------
  // From flags and months
  // ---------------------------------------------------------------------------

  /** `by_flags` (streamlit_app.py:142-146) on the row's remaining months and
      the truth value of its `instalado` cell. Negative months pass neither
      the `> 0` nor the `== 0` test. */
  function ByFlags(meses: real, instalado: bool): (r: Status)
    ensures InTerm(r) <==> meses > 0.0
    ensures Installed(r) <==> instalado && meses >= 0.0
  {
    if meses > 0.0 && instalado then ComVigenciaInstalado
    else if meses > 0.0 && !instalado then ComVigenciaNaoInstalado
    else if meses == 0.0 && instalado then SemVigenciaInstalado
    else SemVigenciaNaoInstalado
  }

  /** The months-only fallback (streamlit_app.py:149): installed exactly when
      in term. */
  function ByMonths(meses: real): (r: Status)
    ensures InTerm(r) <==> meses > 0.0
    ensures Installed(r) <==> meses > 0.0
  {
    if meses > 0.0 then ComVigenciaInstalado else SemVigenciaNaoInstalado
  }

  /** The fallback agrees with the flags path whenever the item is installed
      exactly when in term. */
  lemma ByMonthsIsByFlagsWithInstalledInTerm(meses: real)
    ensures ByMonths(meses) == ByFlags(meses, meses > 0.0)
  {
  }
}

=== FILE: text.dfy ===
/** Text normalisation (`normalize_text`, streamlit_app.py:36-42): trim, lower-case,
    fold a fixed set of Portuguese accented letters, and collapse runs of spaces.
    Substring search (Python's `in` on strings) lives here too. */
module Text {

  // ---------------------------------------------------------------------------
  // Substrings
  // ---------------------------------------------------------------------------

  /** `sub` occurs in `s` starting at index `i`. */
  predicate OccursAt(s: string, sub: string, i: int) {
    0 <= i <= |s| - |sub| && s[i..i + |sub|] == sub
  }

  /** Python's `sub in s`. */
  predicate Contains(s: string, sub: string) {
    exists i | 0 <= i <= |s| - |sub| :: OccursAt(s, sub, i)
  }

  /** Python's `s.startswith(prefix)`. */
  predicate StartsWith(s: string, prefix: string) {
    |s| >= |prefix| && s[..|prefix|] == prefix
  }

  /** An occurrence of a pattern of two or more characters starts with its
      first two characters side by side; used to refute containment. */
  lemma ContainsHeadPair(s: string, sub: string)
    requires |sub| >= 2 && Contains(s, sub)
    ensures exists i | 0 <= i < |s| - 1 :: s[i] == sub[0] && s[i + 1] == sub[1]
  {
    var i :| 0 <= i <= |s| - |sub| && OccursAt(s, sub, i);
    assert s[i..i + |sub|][0] == s[i];
    assert s[i..i + |sub|][1] == s[i + 1];
  }

  /** Whatever contains `sub` also contains every suffix of `sub`. */
  lemma ContainsSuffix(s: string, sub: string, k: nat)
    requires k <= |sub| && Contains(s, sub)
    ensures Contains(s, sub[k..])
  {
    var i :| 0 <= i <= |s| - |sub| && OccursAt(s, sub, i);
    assert s[i + k..i + |sub|] == s[i..i + |sub|][k..];
    assert OccursAt(s, sub[k..], i + k);
  }

  // ---------------------------------------------------------------------------
  // Stripping
  // ---------------------------------------------------------------------------

  /** The characters Python's `str.strip()` removes (`str.isspace()`). */
  predicate IsSpace(c: char) {
    || c == ' '
    || '\t' <= c <= '\r'
    || '\U{001C}' <= c <= '\U{001F}'
    || c == '\U{0085}' || c == '\U{00A0}' || c == '\U{1680}'
    || '\U{2000}' <= c <= '\U{200A}'
    || c == '\U{2028}' || c == '\U{2029}' || c == '\U{202F}'
    || c == '\U{205F}' || c == '\U{3000}'
  }

  /** No whitespace at either end. */
  predicate Trimmed(s: string) {
    |s| == 0 || (!IsSpace(s[0]) && !IsSpace(s[|s| - 1]))
  }

  /** Drops leading whitespace. */
  function TrimStart(s: string): (r: string)
    ensures |r| <= |s| && r == s[|s| - |r|..]
    ensures |r| > 0 ==> !IsSpace(r[0])
    ensures forall i | 0 <= i < |s| - |r| :: IsSpace(s[i])
    decreases |s|
  {
    if |s| > 0 && IsSpace(s[0]) then TrimStart(s[1..]) else s
  }

  /** Drops trailing whitespace. */
  function TrimEnd(s: string): (r: string)
    ensures |r| <= |s| && r == s[..|r|]
    ensures |r| > 0 ==> !IsSpace(r[|r| - 1])
    ensures forall i | |r| <= i < |s| :: IsSpace(s[i])
    decreases |s|
  {
    if |s| > 0 && IsSpace(s[|s| - 1]) then TrimEnd(s[..|s| - 1]) else s
  }

  /** Python's `str.strip()`. */
  function Strip(s: string): (r: string)
    ensures Trimmed(r)
    ensures Trimmed(s) ==> r == s
  {
    TrimEnd(TrimStart(s))
  }

  // ---------------------------------------------------------------------------
  // Lower-casing and accent folding
  // ---------------------------------------------------------------------------

  /** Python's `str.lower()` on ASCII and Latin-1 letters. */
  function LowerChar(c: char): char {
    if 'A' <= c <= 'Z' then (c as int + 32) as char
    else if '\U{00C0}' <= c <= '\U{00D6}' || '\U{00D8}' <= c <= '\U{00DE}' then (c as int + 32) as char
    else c
  }

  /** The letters `normalize_text` folds. */
  predicate IsFolded(c: char) {
    c in {'ã', 'â', 'á', 'à', 'é', 'ê', 'í', 'ó', 'ô', 'ú', 'ç'}
  }

  /** The replacement table of `normalize_text`. Since no replacement letter
      is itself a key, the eleven successive `str.replace` calls act as one
      character-wise map. */
  function FoldChar(c: char): (r: char)
    ensures !IsFolded(r)
    ensures !IsFolded(c) ==> r == c
  {
    match c
    case 'ã' => 'a' case 'â' => 'a' case 'á' => 'a' case 'à' => 'a'
    case 'é' => 'e' case 'ê' => 'e'
    case 'í' => 'i'
    case 'ó' => 'o' case 'ô' => 'o'
    case 'ú' => 'u'
    case 'ç' => 'c'
    case _ => c
  }

  function Lower(s: string): (r: string)
    ensures |r| == |s|
  {
    seq(|s|, i requires 0 <= i < |s| => LowerChar(s[i]))
  }

  function FoldAccents(s: string): (r: string)
    ensures |r| == |s|
    ensures forall i | 0 <= i < |r| :: !IsFolded(r[i])
  {
    seq(|s|, i requires 0 <= i < |s| => FoldChar(s[i]))
  }

  /** A character that lower-casing and folding both leave alone. */
  predicate IsNormalChar(c: char) {
    LowerChar(c) == c && FoldChar(c) == c
  }

  lemma FoldLowerIsNormal(c: char)
    ensures IsNormalChar(FoldChar(LowerChar(c)))
    ensures IsSpace(FoldChar(LowerChar(c))) <==> IsSpace(c)
  {
  }

  lemma LowerConcat(a: string, b: string)
    ensures Lower(a + b) == Lower(a) + Lower(b)
  {
  }

  lemma FoldConcat(a: string, b: string)
    ensures FoldAccents(a + b) == FoldAccents(a) + FoldAccents(b)
  {
  }

  // ---------------------------------------------------------------------------
  // Collapsing spaces
  // ---------------------------------------------------------------------------

  /** Two spaces side by side. */
  predicate HasDoubleSpace(s: string) {
    exists i | 0 <= i < |s| - 1 :: s[i] == ' ' && s[i + 1] == ' '
  }

  lemma DoubleSpaceIsContains(s: string)
    ensures Contains(s, "  ") <==> HasDoubleSpace(s)
  {
    if HasDoubleSpace(s) {
      var i :| 0 <= i < |s| - 1 && s[i] == ' ' && s[i + 1] == ' ';
      assert OccursAt(s, "  ", i);
    }
    if Contains(s, "  ") {
      ContainsHeadPair(s, "  ");
    }
  }

  /** Reference definition: every maximal run of spaces becomes one space. */
  function CollapseSpaces(s: string): (r: string)
    ensures |r| <= |s|
    ensures !HasDoubleSpace(r)
    ensures forall c | c in r :: c in s
    ensures |s| > 0 ==> |r| > 0 && r[0] == s[0] && r[|r| - 1] == s[|s| - 1]
    decreases |s|
  {
    if |s| <= 1 then s
    else if s[0] == ' ' && s[1] == ' ' then CollapseSpaces(s[1..])
    else [s[0]] + CollapseSpaces(s[1..])
  }

  lemma {:induction false} CollapseKeepsSingleSpaces(s: string)
    requires !HasDoubleSpace(s)
    ensures CollapseSpaces(s) == s
    decreases |s|
  {
    if |s| > 1 {
      assert !(s[0] == ' ' && s[1] == ' ');
      CollapseKeepsSingleSpaces(s[1..]);
      assert s == [s[0]] + s[1..];
    }
  }

  /** Python's `s.replace("  ", " ")`: left to right, non-overlapping. */
  function ReplaceDoubleSpace(s: string): (r: string)
    ensures |r| <= |s|
    ensures |s| > 0 ==> |r| > 0 && r[0] == s[0]
    decreases |s|
  {
    if |s| >= 2 && s[0] == ' ' && s[1] == ' ' then [' '] + ReplaceDoubleSpace(s[2..])
    else if |s| == 0 then []
    else [s[0]] + ReplaceDoubleSpace(s[1..])
  }

  lemma {:induction false} ReplaceShrinks(s: string)
    requires HasDoubleSpace(s)
    ensures |ReplaceDoubleSpace(s)| < |s|
    decreases |s|
  {
    if |s| >= 2 && s[0] == ' ' && s[1] == ' ' {
    } else {
      var i :| 0 <= i < |s| - 1 && s[i] == ' ' && s[i + 1] == ' ';
      assert i > 0;
      assert s[1..][i - 1] == ' ' && s[1..][i] == ' ';
      ReplaceShrinks(s[1..]);
    }
  }

  /** One `replace` pass does not change what the collapse produces, whether
      or not a space precedes the text. */
  lemma {:induction false} ReplaceThenCollapse(s: string)
    ensures CollapseSpaces(ReplaceDoubleSpace(s)) == CollapseSpaces(s)
    ensures CollapseSpaces([' '] + ReplaceDoubleSpace(s)) == CollapseSpaces([' '] + s)
    decreases |s|
  {
    if |s| == 0 {
    } else if |s| >= 2 && s[0] == ' ' && s[1] == ' ' {
      var t := s[2..];
      ReplaceThenCollapse(t);
      assert ReplaceDoubleSpace(s) == [' '] + ReplaceDoubleSpace(t);
      assert s[1..] == [' '] + t;
      assert ([' '] + s)[1..] == s;
      assert ([' '] + ([' '] + ReplaceDoubleSpace(t)))[1..] == [' '] + ReplaceDoubleSpace(t);
    } else {
      var t := s[1..];
      ReplaceThenCollapse(t);
      var rt := ReplaceDoubleSpace(t);
      assert ReplaceDoubleSpace(s) == [s[0]] + rt;
      assert ([s[0]] + rt)[1..] == rt;
      assert ([' '] + s)[1..] == s;
      assert ([' '] + ([s[0]] + rt))[1..] == [s[0]] + rt;
      if s[0] == ' ' {
        assert |t| > 0 ==> t[0] != ' ';
        assert |rt| > 0 ==> rt[0] == t[0];
      }
    }
  }

  /** The loop of `normalize_text` (streamlit_app.py:41): replace double
      spaces until none is left. */
  method CollapseDoubleSpaces(s0: string) returns (s: string)
    ensures s == CollapseSpaces(s0)
    ensures !Contains(s, "  ")
  {
    s := s0;
    DoubleSpaceIsContains(s);
    while Contains(s, "  ")
      invariant CollapseSpaces(s) == CollapseSpaces(s0)
      invariant Contains(s, "  ") <==> HasDoubleSpace(s)
      decreases |s|
    {
      ReplaceShrinks(s);
      ReplaceThenCollapse(s);
      s := ReplaceDoubleSpace(s);
      DoubleSpaceIsContains(s);
    }
    CollapseKeepsSingleSpaces(s);
  }

  // ---------------------------------------------------------------------------
  // normalize_text
  // ---------------------------------------------------------------------------

  /** The shape every output of `NormalizeText` has. */
  predicate IsNormalized(s: string) {
    && Trimmed(s)
    && !HasDoubleSpace(s)
    && forall i | 0 <= i < |s| :: IsNormalChar(s[i])
  }

  /** Lower-casing then folding a trimmed text gives a trimmed text made of
      normal characters. */
  lemma FoldLowerShape(t: string)
    requires Trimmed(t)
    ensures Trimmed(FoldAccents(Lower(t)))
    ensures forall i | 0 <= i < |t| :: IsNormalChar(FoldAccents(Lower(t))[i])
  {
    var f := FoldAccents(Lower(t));
    forall i | 0 <= i < |t|
      ensures IsNormalChar(f[i]) && (IsSpace(f[i]) <==> IsSpace(t[i]))
    {
      FoldLowerIsNormal(t[i]);
    }
  }

  /** Collapsing keeps the characters, the two ends, and so the shape. */
  lemma CollapseShape(f: string)
    requires Trimmed(f)
    requires forall i | 0 <= i < |f| :: IsNormalChar(f[i])
    ensures IsNormalized(CollapseSpaces(f))
  {
    var r := CollapseSpaces(f);
    forall i | 0 <= i < |r| ensures IsNormalChar(r[i]) {
      assert r[i] in r;
      var j :| 0 <= j < |f| && f[j] == r[i];
    }
  }

  /** `normalize_text` on a present value (streamlit_app.py:38-42). */
  function NormalizeText(s: string): (r: string)
    ensures IsNormalized(r)
    ensures forall i | 0 <= i < |r| :: !IsFolded(r[i])
    ensures |r| <= |s|
  {
    FoldLowerShape(Strip(s));
    CollapseShape(FoldAccents(Lower(Strip(s))));
    CollapseSpaces(FoldAccents(Lower(Strip(s))))
  }

  // ---------------------------------------------------------------------------
  // What normalisation keeps
  // ---------------------------------------------------------------------------

  /** The characters of `s` that are not whitespace, in order. */
  function NonSpace(s: string): string
    decreases |s|
  {
    if s == [] then [] else (if IsSpace(s[0]) then [] else [s[0]]) + NonSpace(s[1..])
  }

  lemma {:induction false} NonSpaceAppend(a: string, b: string)
    ensures NonSpace(a + b) == NonSpace(a) + NonSpace(b)
    decreases |a|
  {
    if a != [] {
      assert (a + b)[0] == a[0] && (a + b)[1..] == a[1..] + b;
      NonSpaceAppend(a[1..], b);
    } else {
      assert a + b == b;
    }
  }

  lemma {:induction false} TrimStartKeepsNonSpace(s: string)
    ensures NonSpace(TrimStart(s)) == NonSpace(s)
    decreases |s|
  {
    if |s| > 0 && IsSpace(s[0]) {
      TrimStartKeepsNonSpace(s[1..]);
    }
  }

  lemma {:induction false} TrimEndKeepsNonSpace(s: string)
    ensures NonSpace(TrimEnd(s)) == NonSpace(s)
    decreases |s|
  {
    if |s| > 0 && IsSpace(s[|s| - 1]) {
      var init := s[..|s| - 1];
      TrimEndKeepsNonSpace(init);
      assert s == init + [s[|s| - 1]];
      NonSpaceAppend(init, [s[|s| - 1]]);
      assert NonSpace([s[|s| - 1]]) == [];
    }
  }

  lemma {:induction false} CollapseKeepsNonSpace(s: string)
    ensures NonSpace(CollapseSpaces(s)) == NonSpace(s)
    decreases |s|
  {
    if |s| > 1 {
      CollapseKeepsNonSpace(s[1..]);
      if !(s[0] == ' ' && s[1] == ' ') {
        var r := [s[0]] + CollapseSpaces(s[1..]);
        assert r[0] == s[0] && r[1..] == CollapseSpaces(s[1..]);
      }
    }
  }

  lemma {:induction false} FoldLowerKeepsNonSpace(s: string)
    ensures NonSpace(FoldAccents(Lower(s))) == FoldAccents(Lower(NonSpace(s)))
    decreases |s|
  {
    if s != [] {
      var f := FoldAccents(Lower(s));
      FoldLowerKeepsNonSpace(s[1..]);
      FoldLowerIsNormal(s[0]);
      assert f[0] == FoldChar(LowerChar(s[0]));
      assert f[1..] == FoldAccents(Lower(s[1..]));
      var head := if IsSpace(s[0]) then [] else [s[0]];
      LowerConcat(head, NonSpace(s[1..]));
      FoldConcat(Lower(head), Lower(NonSpace(s[1..])));
    }
  }

  /** Apart from whitespace, `normalize_text` gives the input's characters
      lower-cased and folded, in order (streamlit_app.py:38-42). */
  lemma NormalizeKeepsLetters(s: string)
    ensures NonSpace(NormalizeText(s)) == FoldAccents(Lower(NonSpace(s)))
  {
    TrimStartKeepsNonSpace(s);
    TrimEndKeepsNonSpace(TrimStart(s));
    FoldLowerKeepsNonSpace(Strip(s));
    CollapseKeepsNonSpace(FoldAccents(Lower(Strip(s))));
  }

  // ---------------------------------------------------------------------------
  // Interior runs of spaces
  // ---------------------------------------------------------------------------

  /** `n` space characters. */
  function Spaces(n: nat): (r: string)
    ensures |r| == n && forall i | 0 <= i < n :: r[i] == ' '
  {
    seq(n, i => ' ')
  }

  /** One step of `CollapseSpaces` on a text with a known first character. */
  lemma CollapseCons(c: char, t: string)
    requires t != []
    ensures CollapseSpaces([c] + t)
         == if c == ' ' && t[0] == ' ' then CollapseSpaces(t) else [c] + CollapseSpaces(t)
  {
    var s := [c] + t;
    assert s[0] == c && s[1] == t[0] && s[1..] == t;
  }

  /** Collapsing works piece by piece after a piece that does not end in a space. */
  lemma {:induction false} CollapseAppend(x: string, z: string)
    requires x != [] && z != [] && x[|x| - 1] != ' '
    ensures CollapseSpaces(x + z) == CollapseSpaces(x) + CollapseSpaces(z)
    decreases |x|
  {
    var t := x[1..];
    assert x + z == [x[0]] + (t + z);
    if t == [] {
      CollapseCons(x[0], z);
    } else {
      assert x == [x[0]] + t;
      CollapseAppend(t, z);
      CollapseCons(x[0], t + z);
      CollapseCons(x[0], t);
      AppendCons(x[0], CollapseSpaces(t), CollapseSpaces(z));
    }
  }

  lemma AppendCons(c: char, u: string, v: string)
    ensures [c] + (u + v) == ([c] + u) + v
  {
  }

  lemma AppendAssoc(u: string, v: string, w: string)
    ensures u + v + w == u + (v + w)
  {
  }

  /** A leading run of spaces collapses to one space. */
  lemma {:induction false} CollapseRun(n: nat, y: string)
    requires n >= 1 && y != [] && y[0] != ' '
    ensures CollapseSpaces(Spaces(n) + y) == " " + CollapseSpaces(y)
    decreases n
  {
    var s := Spaces(n) + y;
    if n == 1 {
      assert s[1..] == y;
    } else {
      assert s[1..] == Spaces(n - 1) + y;
      CollapseRun(n - 1, y);
    }
  }

  lemma FoldLowerSpaces(n: nat)
    ensures FoldAccents(Lower(Spaces(n))) == Spaces(n)
  {
    assert LowerChar(' ') == ' ';
    assert FoldChar(' ') == ' ';
  }

  lemma FoldLowerJoin(a: string, b: string, n: nat)
    ensures FoldAccents(Lower(a + Spaces(n) + b))
         == FoldAccents(Lower(a)) + Spaces(n) + FoldAccents(Lower(b))
  {
    LowerConcat(a, Spaces(n));
    LowerConcat(a + Spaces(n), b);
    FoldConcat(Lower(a), Lower(Spaces(n)));
    FoldConcat(Lower(a + Spaces(n)), Lower(b));
    FoldLowerSpaces(n);
  }

  /** A run of spaces between two pieces that do not touch it with a space
      of their own collapses to one space. */
  lemma CollapseJoin(x: string, y: string, n: nat)
    requires x != [] && y != [] && x[|x| - 1] != ' ' && y[0] != ' ' && n >= 1
    ensures CollapseSpaces(x + Spaces(n) + y) == CollapseSpaces(x) + " " + CollapseSpaces(y)
  {
    var w := Spaces(n) + y;
    AppendAssoc(x, Spaces(n), y);
    CollapseRun(n, y);
    CollapseAppend(x, w);
    AppendAssoc(CollapseSpaces(x), " ", CollapseSpaces(y));
  }

  lemma StripJoin(a: string, b: string, n: nat)
    requires a != [] && b != [] && Trimmed(a) && Trimmed(b)
    ensures Strip(a + Spaces(n) + b) == a + Spaces(n) + b
  {
    var s := a + Spaces(n) + b;
    assert s[0] == a[0] && s[|s| - 1] == b[|b| - 1];
  }

  /** Lower-casing and folding keep a stripped text stripped. */
  lemma FoldLowerEnds(a: string)
    requires a != [] && Trimmed(a)
    ensures var f := FoldAccents(Lower(a)); f != [] && f[0] != ' ' && f[|f| - 1] != ' '
  {
    FoldLowerIsNormal(a[0]);
    FoldLowerIsNormal(a[|a| - 1]);
  }

  /** The `replace("  ", " ")` loop of streamlit_app.py:41 after stripping:
      a run of one or more spaces between two stripped pieces of text
      becomes exactly one space, and each piece is normalised on its own. */
  lemma NormalizeJoinsWithOneSpace(a: string, b: string, n: nat)
    requires a != [] && b != [] && Trimmed(a) && Trimmed(b) && n >= 1
    ensures NormalizeText(a + Spaces(n) + b) == NormalizeText(a) + " " + NormalizeText(b)
  {
    StripJoin(a, b, n);
    assert Strip(a) == a && Strip(b) == b;
    FoldLowerJoin(a, b, n);
    FoldLowerEnds(a);
    FoldLowerEnds(b);
    CollapseJoin(FoldAccents(Lower(a)), FoldAccents(Lower(b)), n);
  }

  /** Normalising a text piece by piece: lower-casing and folding act
      character-wise, so a long literal can be normalised in two halves. */
  lemma NormalizeInTwoParts(a: string, b: string, na: string, nb: string)
    requires Trimmed(a + b)
    requires FoldAccents(Lower(a)) == na && FoldAccents(Lower(b)) == nb
    requires !HasDoubleSpace(na + nb)
    ensures NormalizeText(a + b) == na + nb
  {
    LowerConcat(a, b);
    FoldConcat(Lower(a), Lower(b));
    CollapseKeepsSingleSpaces(na + nb);
  }

  /** Normalising text already in normal form changes nothing. */
  lemma NormalizedIsFixed(s: string)
    requires IsNormalized(s)
    ensures NormalizeText(s) == s
  {
    assert Strip(s) == s;
    assert Lower(s) == s;
    assert FoldAccents(s) == s;
    CollapseKeepsSingleSpaces(s);
  }

  /** `normalize_text` is idempotent. */
  lemma NormalizeIdempotent(s: string)
    ensures NormalizeText(NormalizeText(s)) == NormalizeText(s)
  {
    NormalizedIsFixed(NormalizeText(s));
  }

}

=== FILE: wrappers.dfy ===
/** Failure-compatible wrappers used across the model: an optional value for
    spreadsheet cells that may be empty, and a result for the one step that
    can halt processing. */
module Wrappers {

  /** A cell value that may be missing (pandas' NaN / None). */
  datatype Option<+T> = None | Some(value: T) {

    /** The value, or `default` when missing (pandas' `fillna(default)`). */
    function GetOr(default: T): T {
      match this
      case Some(v) => v
      case None => default
    }
  }

  /** Either the computed value or the reason processing stopped. */
  datatype Result<+R, +E> = Success(value: R) | Failure(error: E) {

    predicate IsFailure() {
      Failure?
    }

    function PropagateFailure<U>(): Result<U, E>
      requires Failure?
    {
      Failure(error)
    }

    function Extract(): R
      requires Success?
    {
      value
    }
  }
}
